=== FILE: README.md ===
# Clash Verge Adobe blocker: a Dafny model

The tool patches the global routing script of the Clash Verge proxy client
so that Adobe licensing and telemetry hosts are rejected, and restores
earlier versions of that script from timestamped backups. This project
models its core in Dafny and proves properties of that model:

- `core.dfy` (module `Core`, from `clash_verge_core.py`) covers where the
  profiles directory is on each host OS, and how the global script is picked
  from the directory listing. It also covers the backup scheme: a backup is
  named `<stem>.bak.<YYYYMMDDHHMMSS>`, and a restore takes a snapshot of the
  file it overwrites. The directory is the class `Profiles`. It holds whether
  the directory exists, a map from file name to contents, and the names
  whose writes raise.
- `timestamp.dfy` (module `Timestamp`) holds the 14-digit stamp written into
  backup names, its parser, and the display form.
- `adobe_block.dfy` (module `AdobeBlock`, from `clash_verge_adobe_block.py`)
  covers:
  - extracting Adobe hosts from a hosts-style block list;
  - the ordered chain of GitHub mirrors the list is fetched through, and the
    single request through a user-given proxy;
  - rendering the routing script;
  - applying it by backing the global script up and then overwriting it.
- `fix.dfy` (module `Fix`, from `clash_verge_fix.py`) covers restoring a
  backup three ways: by 1-based index, by name, or through the interactive
  choose-and-confirm dialogue. It also covers how `main` routes its command
  line.
- `text.dfy` and `wrappers.dfy` hold the Python string operations the code
  relies on, and `Option`.

Every state-changing method is proved equal to a pure effect function of the
old state. For example, `ModifyClashVergeScript` ensures
`(r, store.files) == ApplyEffect(old(store.files), ...)`. The lemmas about
those effect functions state what the tool promises.

Three consequences of the code are worth knowing:

- Backups are named with `Path.with_suffix`, which replaces the last
  extension. So `script.js` is backed up as `script.bak.<stamp>`, and that
  backup is restored to `script`, not to `script.js`. The round trip
  "snapshot, then restore, gives the file back" therefore needs a name
  without an extension, and one in which no ".bak." starts
  (`SnapshotRestoreRoundTrip`).
  `ScriptJsRestoresToScript` shows the mismatch for the script the tool
  patches.
- When the global script is listed but no longer exists, applying the patch
  does not skip the backup and write a new file. `backup_file` gives `None`,
  and the apply step fails with "backup failed" without writing.
- `urlopen` is called without a timeout, so one unresponsive mirror can hold
  up the whole mirror chain.

## Model

| member | source | states |
|---|---|---|
| Core.ClashVergeDirectory | clash_verge_core.py:14-26 | A directory exists exactly for Windows, Darwin and Linux, and it lies below the home directory |
| Core.ProfilesDirectory | clash_verge_core.py:28-30 | Defined exactly when the configuration directory is; it is that directory plus `profiles` |
| Core.Suffix | clash_verge_core.py:89 | `Path.suffix`: empty, or a dot-led tail of the name with no further dot, of length at least 2 and shorter than the name |
| Core.SuffixMeaning | clash_verge_core.py:89 | The suffix is nonempty exactly when the last dot lies strictly inside the name, and it then runs from that dot |
| Core.SuffixOfExtension | clash_verge_core.py:65 | `a.b` (nonempty `a`, dotless nonempty `b`) has suffix `.b` and stem `a`: the part `with_suffix` replaces |
| Core.Stem | clash_verge_core.py:65 | Stem followed by suffix is the name |
| Core.OriginalName | clash_verge_core.py:97-100 | The longest prefix before the first ".bak."; the whole name if there is none |
| Core.ExtractBackupTime | clash_verge_core.py:82-95 | "未知时间" exactly when the last suffix does not parse as a stamp; otherwise the display form of the parsed time |
| Core.BackupName | clash_verge_core.py:64-65 | `with_suffix(".bak.<stamp>")`: the stem, ".bak." and the stamp; its properties are stated by `BackupNameShape`, `BackupNamesDistinct` and `OriginalNameOfBackup` |
| Core.BackupStamp | clash_verge_core.py:89 | `suffix.split('.')[-1]`: empty when there is no suffix, otherwise the suffix without its leading dot; `BackupNameShape` states it is the stamp of a backup name |
| Core.BackupNameShape | clash_verge_core.py:64-65 | A backup name has suffix `.<stamp>`, matches `*.bak.*`, and differs from the name it was taken of |
| Core.BackupTimeOfBackupName | clash_verge_core.py:64-93 | The listed time of a backup is the time it was taken |
| Core.BackupNamesDistinct | clash_verge_core.py:64-65 | Backups of one file taken at different times get different names |
| Core.OriginalNameOfBackup | clash_verge_core.py:97-100 | A backup restores to the stem of the backed-up file, when no ".bak." starts inside that stem (the stem followed by ".bak" holds no ".bak.") |
| Core.OriginalNameOfBackupPlain | clash_verge_core.py:97-100 | For a name with no extension in which no ".bak." starts (the name followed by ".bak" holds no ".bak."), the backup restores to that name |
| Core.ScriptJsRestoresToScript | clash_verge_core.py:97-100 | Backups of `script.js` restore to `script` |
| Core.GlobalScript | clash_verge_core.py:32-54 | A chosen script needs the directory present, is listed, and matches `*.js`; `GlobalScriptChoice` states the full choice rule |
| Core.GlobalScriptChoice | clash_verge_core.py:32-54 | No script iff the directory is missing or lists no `.js`; else the first listed `script.js` (any case) if any, else the first `.js` |
| Core.FindGlobalScript | clash_verge_core.py:32-54 | The two-pass loop returns the script `GlobalScript` chooses |
| Core.BackupFiles | clash_verge_core.py:69-80 | A name is listed iff the directory exists and the name is listed and matches `*.bak.*` |
| Core.BackupFilesKeepOrder | clash_verge_core.py:76-80 | The backups of a concatenated listing are the backups of each part, in order: listing order is kept |
| Core.FindBackupFiles | clash_verge_core.py:69-80 | The loop returns `BackupFiles` of the listing, in listing order |
| Core.Profiles.Backup | clash_verge_core.py:56-67 | The store's new files and the result are those of `BackupEffect`, so by `BackupOutcome` it backs up exactly when the source exists and its backup name may be written |
| Core.Profiles.Write | clash_verge_adobe_block.py:190-191 | A write succeeds iff the name is not refused, and then replaces exactly that file |
| Core.Profiles.Restore | clash_verge_core.py:102-135 | The store's new files and the report are those of `RestoreEffect`, so `RestoreSucceeds` says exactly when it succeeds |
| Core.RestoreTo | clash_verge_core.py:116-132 | The checks and steps of `restore_backup` for a given destination and snapshot name. `RestoreToSucceeds` states when they succeed; `RestoreFailureKeepsDestination`, `RestoreSuccessContents`, `RestoreKeepsSnapshot` and `RestoreFrame` state the effect |
| Core.RestoreToSucceeds | clash_verge_core.py:116-132 | A missing backup fails with no change. Success happens exactly when the backup exists, the destination is neither the directory nor the backup and may be written, and any snapshot taken first may be written |
| Core.RestoreSucceeds | clash_verge_core.py:102-135 | The same condition for `restore_backup`, with the destination `OriginalName(backup)` and the snapshot `BackupName(destination, now)` |
| Core.CopyBack | clash_verge_core.py:131-132 | `shutil.copy2`: a failure leaves every file as it was; a success reports the destination, gives it the backup's contents and adds no name other than the destination; every other file keeps its contents |
| Core.BackupOutcome | clash_verge_core.py:56-67 | A missing source gives `None` and no change. The backup succeeds exactly when the source exists and its backup name may be written. A success adds exactly one `*.bak.*` file holding the source's contents, and leaves all else alone |
| Core.RestoreFailureKeepsDestination | clash_verge_core.py:102-135 | A failed restore leaves the destination as it was and adds at most the snapshot |
| Core.RestoreSuccessContents | clash_verge_core.py:116-132 | A success writes the backup's contents to the original name, except when the snapshot overwrote the backup itself |
| Core.RestoreKeepsSnapshot | clash_verge_core.py:124-132 | With auto-backup and an existing destination, a success keeps a snapshot of the old destination; the backup itself survives |
| Core.RestoreFrame | clash_verge_core.py:102-135 | A restore touches no file other than the destination and the snapshot |
| Core.RestoreAutoBackupRefused | clash_verge_core.py:124-135 | A refused snapshot write fails the restore with no change |
| Core.SnapshotRestoreRoundTrip | clash_verge_core.py:56-135 | Take a successful snapshot of a writable file that has no extension and in which no ".bak." starts. Then make any edit that keeps the backup's contents. A restore without a further snapshot then brings back the file's contents at snapshot time and changes nothing else |
| Timestamp.Pad | clash_verge_core.py:64 | The digit field has exactly the given width and only digits |
| Timestamp.Stamp | clash_verge_core.py:64 | The stamp is 14 digits |
| Timestamp.Display | clash_verge_core.py:93 | 19 characters with the separators of `%Y-%m-%d %H:%M:%S` in place |
| Timestamp.DisplayOfStamp | clash_verge_core.py:89-93 | The displayed time is the stamp's six digit fields with "-", " " and ":" between them |
| Timestamp.ParseStamp | clash_verge_core.py:91 | Whatever parses is a valid calendar time |
| Timestamp.StampRoundTrip | clash_verge_core.py:89-93 | Parsing the stamp of a valid time gives that time |
| Timestamp.ParsedStampIsStamp | clash_verge_core.py:91 | A string that parses is the stamp of its parsed time |
| Timestamp.StampInjective | clash_verge_core.py:64 | Distinct times give distinct stamps |
| Text.Before | clash_verge_core.py:100 | `split(sep)[0]`: a prefix with no earlier occurrence of the separator, followed by the separator if it occurs |
| Text.SplitLines | clash_verge_adobe_block.py:92 | No line contains a line break |
| Text.SplitLinesOfJoin | clash_verge_adobe_block.py:92 | Splitting break-free lines joined by "\n" gives them back, when the last one is not empty |
| Text.Strip | clash_verge_adobe_block.py:93 | The result neither starts nor ends with white space, and it is the slice of the text that starts after the leading white space |
| Text.StripMeaning | clash_verge_adobe_block.py:93 | The result is one contiguous slice of the text, and everything outside it is white space |
| Text.UpToSpace | clash_verge_adobe_block.py:95 | A space-free prefix that ends the text or is followed by a space |
| Text.Lower | clash_verge_adobe_block.py:96 | Same length, each character folded |
| AdobeBlock.HostName | clash_verge_adobe_block.py:93-95 | The host of a stripped `127.0.0.1 ` line; stated by `HostNameShape` and `HostOfPlainLine` |
| AdobeBlock.HostNameShape | clash_verge_adobe_block.py:93-95 | A line has a host iff its stripped text starts with "127.0.0.1 "; the host follows the prefix, has no space, and ends there |
| AdobeBlock.SelectedMeaning | clash_verge_adobe_block.py:93-97 | A line yields at most one domain: its host, exactly when that host mentions "adobe" in any case |
| AdobeBlock.Extracted | clash_verge_adobe_block.py:89-98 | The Adobe hosts of the text's lines, in line order; stated by `ExtractedMember` and `HostOfPlainLine` |
| AdobeBlock.ExtractedMember | clash_verge_adobe_block.py:89-98 | A domain is extracted iff it is an Adobe host of some line; there are at most as many domains as lines |
| AdobeBlock.HostOfPlainLine | clash_verge_adobe_block.py:92-97 | The text `127.0.0.1 <host>` yields the host, and exactly when it is an Adobe one |
| AdobeBlock.ExtractAdobeDomains | clash_verge_adobe_block.py:89-98 | The loop returns `Extracted(content)` |
| AdobeBlock.AttemptMeaning | clash_verge_adobe_block.py:57-63 | A request is usable iff it answers 200 with a body that yields a domain; it then gives those domains |
| AdobeBlock.MirrorUrls | clash_verge_adobe_block.py:53-54 | One URL per mirror, in mirror order, each the mirror followed by the list's path |
| AdobeBlock.Fallback | clash_verge_adobe_block.py:50-68 | The mirror chain's result and requested URLs; stated by `FallbackTried`, `FallbackAnswers`, `FallbackOutcome`, `FallbackStopsAt` and `FallbackAllFail` |
| AdobeBlock.FallbackTried | clash_verge_adobe_block.py:50-68 | The URLs requested are a nonempty prefix of the mirror URLs, all of them when nothing was found |
| AdobeBlock.FallbackAnswers | clash_verge_adobe_block.py:53-68 | Every requested URL but the last was unusable, and the last one's domains are the result |
| AdobeBlock.FallbackOutcome | clash_verge_adobe_block.py:50-68 | The mirror chain stops at the first usable mirror; `None` only after every mirror was asked and failed |
| AdobeBlock.FallbackStopsAt | clash_verge_adobe_block.py:53-63 | If mirrors before k fail and mirror k answers, the result is mirror k's domains, having asked mirrors 0..k |
| AdobeBlock.FallbackAllFail | clash_verge_adobe_block.py:53-68 | If every mirror fails, the result is `None` with every URL tried |
| AdobeBlock.TryDownloadWithProxies | clash_verge_adobe_block.py:50-68 | The loop returns the domains and tried URLs of the mirror chain |
| AdobeBlock.TryMirrors | clash_verge_adobe_block.py:52-68 | The loop over any mirror list returns the chain's domains and tried URLs; its invariant is that the rest of the chain is still to be asked |
| AdobeBlock.DownloadAdobeBlockList | clash_verge_adobe_block.py:100-114 | The mirror chain's domains, never an empty list |
| AdobeBlock.NormaliseProxy | clash_verge_adobe_block.py:72-73 | The base ends in '/' and is the input, with '/' appended only if missing |
| AdobeBlock.NormaliseIdempotent | clash_verge_adobe_block.py:72-73 | Normalising twice is normalising once |
| AdobeBlock.TryDownloadWithCustomProxy | clash_verge_adobe_block.py:70-87 | Domains iff the single request to base + upstream address answers 200 with a body yielding domains |
| AdobeBlock.Blocked | clash_verge_adobe_block.py:153 | The rule filter; stated by `RuleLineMember` and `AdobeIoExclusionCaseSensitive` |
| AdobeBlock.Render | clash_verge_adobe_block.py:116-158 | The template around the "\n"-joined rule lines; stated by `RuleLinesOfBlocked`, `RuleLineMember` and `FixedRulesPresent` |
| AdobeBlock.CreateAdobeBlockScript | clash_verge_adobe_block.py:116-158 | The loop returns the template filled with the rule lines of `Render` |
| AdobeBlock.RuleLinesOfBlocked | clash_verge_adobe_block.py:151-157 | One rule line per domain that passes the filter, in input order |
| AdobeBlock.RuleLineInjective | clash_verge_adobe_block.py:154 | Different domains get different rule lines |
| AdobeBlock.RuleLineMember | clash_verge_adobe_block.py:151-154 | A domain has a rule iff it is in the input, mentions "adobe" in any case, and does not contain "adobe.io" |
| AdobeBlock.FixedRulesPresent | clash_verge_adobe_block.py:119-148 | The photo-api allow rule and the adobe.io and adobestats.io reject rules are lines of every script, even for no domains |
| AdobeBlock.AdobeIoExclusionCaseSensitive | clash_verge_adobe_block.py:153 | A domain with "adobe.io" only up to case (e.g. `X.ADOBE.IO`) still gets a rule |
| AdobeBlock.DomainsForTiers | clash_verge_adobe_block.py:176-179 | The built-in list is used only after every mirror failed; a downloaded list is nonempty |
| AdobeBlock.ChooseDomains | clash_verge_adobe_block.py:176-179 | Given list, else download, else the built-in list |
| AdobeBlock.BackupThenWriteOutcome | clash_verge_adobe_block.py:185-193 | A missing target fails with no change; success adds the backup and then replaces the target; other failures leave at most the backup |
| AdobeBlock.BackupThenWriteSucceeds | clash_verge_adobe_block.py:185-193 | Backing up then writing succeeds exactly when the target exists and both the backup name and the target may be written |
| AdobeBlock.WriteWithBackup | clash_verge_adobe_block.py:185-193 | The store's new files and the report are those of `BackupThenWrite`, so `BackupThenWriteSucceeds` and `BackupThenWriteOutcome` say when it succeeds and what it leaves |
| AdobeBlock.ApplyOutcome | clash_verge_adobe_block.py:160-196 | No script or a missing script changes nothing. Success writes the rendered script and keeps the old one under its backup name. The script is never written without its backup |
| AdobeBlock.ApplySucceeds | clash_verge_adobe_block.py:160-196 | Applying succeeds exactly when the profiles directory is known, a global script is listed and exists, and both its backup name and the script may be written |
| AdobeBlock.ModifyClashVergeScript | clash_verge_adobe_block.py:160-196 | The store's new files and the report are those of `ApplyEffect`, so `ApplySucceeds` and `ApplyOutcome` say when it succeeds and what it leaves |
| Fix.PickByIndex | clash_verge_fix.py:75-82 | "No backups" exactly for an empty listing, and a picked backup is a listed one; `PickByIndexMeaning` states the bounds |
| Fix.PickByIndexMeaning | clash_verge_fix.py:75-82 | Nothing for an empty listing; an index picks iff it is in 1..n, where n is the number of backups, and then picks entry idx-1 |
| Fix.PickedIsListedBackup | clash_verge_fix.py:75-82 | What is picked is a listed `*.bak.*` name |
| Fix.ByIndexOutcome | clash_verge_fix.py:65-86 | "No backups" and "invalid index" come exactly from those checks and change nothing; a valid index is exactly a restore of that backup |
| Fix.RestoreBackupByIndex | clash_verge_fix.py:65-86 | The store's new files and the report are those of `ByIndexEffect` |
| Fix.ByNameOutcome | clash_verge_fix.py:88-107 | The name "" or ".", which is the profiles directory itself, fails with an exception and no change. A missing file fails with no change. Otherwise it is exactly a restore of that file |
| Fix.ByNameAgreesWithByIndex | clash_verge_fix.py:65-107 | Restoring the backup listed at n by name equals restoring index n |
| Fix.RestoreBackupByName | clash_verge_fix.py:88-107 | The store's new files and the report are those of `ByNameEffect` |
| Fix.Choose | clash_verge_fix.py:25-55 | "Nothing listed" exactly for an empty listing, and a confirmed backup is a listed one; `ChooseConfirmed` and `QuitCancels` state the branches |
| Fix.ChooseConfirmed | clash_verge_fix.py:25-55 | Confirmed iff backups exist, the choice is not q/Q, it reads as n in 1..count, and the answer is y/Y; the backup is then the n-th |
| Fix.QuitCancels | clash_verge_fix.py:36-38 | "q" and "Q" cancel whatever the confirmation |
| Fix.InteractiveOutcome | clash_verge_fix.py:20-63 | Only a confirmed choice changes files, and a confirmed choice n equals restoring index n |
| Fix.InteractiveRestore | clash_verge_fix.py:20-63 | The dialogue's end, the report and the store's new files are those of `InteractiveEffect` |
| Fix.Route | clash_verge_fix.py:115-137 | No argument starts the dialogue; an integer argument is an index; any other argument is a name |
| Fix.RunFix | clash_verge_fix.py:109-140 | The report and the store's new files are those of `MainEffect` |

## Left out

- The GUI front end (`clash_verge_gui.py`) is not part of this model. Neither is the `__main__` block of `clash_verge_adobe_block.py`, which only prints the apply step's outcome.
- Console output is left out. This covers the progress lines, the URL log, and the text of the `(success, message)` pairs. A report keeps only success with the written file, or the reason for failure.
- The network is the oracle `fetch`. Socket errors, HTTP errors and bodies that are not UTF-8 are all `Error`. No timeout is modelled, and the code sets none.
- Python's `int()` is the oracle `parseInt`. White space, signs and underscores are its concern.
- `input()` is given as the strings `choice` and `confirm`. The dialogue reads the confirmation only on the branch that uses it.
- `platform.system()`, `Path.home()` and `datetime.now()` are the `Host` parameter.
- The `glob` enumeration order is the `listing` parameter. Matching is case-sensitive, as `pathlib` does on POSIX systems including macOS. On Windows, `glob` matches case-insensitively, which is not modelled.
- A listing may name files the store does not hold, which models a stale listing.
- Names are single path components. A command-line name containing separators, `..`, or an absolute path is not modelled. The only directories that are named are the profiles directory and its parent: "" and "." name the directory itself (pathlib drops both), and ".." names its parent. A backup whose original name is "", "." or ".." likewise restores onto a directory and fails.
- The store holds files only, never subdirectories. A backup whose original name is an existing subdirectory of the profiles directory would fail to restore in the tool, because backing up or copying onto a directory raises. The model cannot express that case.
- I/O failures are limited to writes refused per file name (the `denied` set). Reads never fail, and the profiles directory is never removed while the tool runs.
- `shutil.copy2` copies contents only; metadata is not modelled.
- `Core.Profiles.Write`: files hold strings, not bytes. `open(..., 'w', encoding='utf-8')` encodes the script as UTF-8 and, on Windows, writes each "\n" as "\r\n". The model stores the text unchanged.
- `Text.Lower` folds only ASCII letters. The model compares only with "adobe", "script.js", "q" and "y", and no non-ASCII character folds to exactly those words.
- `Timestamp.ParseStamp` accepts exactly fourteen ASCII digits. `strptime` also accepts shorter digit fields and other Unicode decimal digits, neither of which the tool itself writes.
- Years below 1000 are zero-padded to four digits in `Stamp`. Python's `%Y` does not pad them on every platform.
- A manually entered domain list and a custom-mirror tier belong to the GUI. They are left out except for the single request in `TryDownloadWithCustomProxy`.
- Concurrent runs on the same directory are not modelled.

=== FILE: adobe_block.dfy ===
/**
 * The Adobe-blocking patch (clash_verge_adobe_block.py): fetching the
 * hosts-style block list through an ordered list of GitHub mirrors,
 * extracting the Adobe domains from it, rendering the routing script that
 * rejects them, and writing that script over the global script after
 * backing it up.
 *
 * The network is the oracle `fetch`: a request either fails (`Error`, which
 * also stands for a body that does not decode as UTF-8) or answers with a
 * status and a body.
 */
module AdobeBlock {
  import opened Wrappers
  import opened Text
  import opened Timestamp
  import opened Core

  const BuiltinAdobeDomains: seq<string> := [
    "activate.adobe.com", "practivate.adobe.com", "ereg.adobe.com", "wip.adobe.com",
    "activate.wip.adobe.com", "3dns.adobe.com", "3dns-1.adobe.com", "3dns-2.adobe.com",
    "3dns-3.adobe.com", "3dns-4.adobe.com", "adobe-dns.adobe.com", "adobe-dns-1.adobe.com",
    "adobe-dns-2.adobe.com", "adobe-dns-3.adobe.com", "adobe-dns-4.adobe.com",
    "lm.licenses.adobe.com", "lmlicenses.wip4.adobe.com", "na1r.services.adobe.com",
    "hlrcv.stage.adobe.com", "adobeereg.com", "www.adobeereg.com"
  ]

  /** The mirrors, in the order they are tried; the first is the origin itself. */
  const GithubProxies: seq<string> := [
    "https://raw.githubusercontent.com",
    "https://ghfast.top/raw.githubusercontent.com",
    "https://gh-proxy.com/https://raw.githubusercontent.com",
    "https://mirror.ghproxy.com/https://raw.githubusercontent.com"
  ]

  /** The path of the block list below a mirror. */
  const UpstreamPath: string := "/ignaciocastro/a-dove-is-dumb/main/127.txt"

  /** The block list's full address, which a user-given proxy prefixes. */
  const UpstreamUrl: string := "https://raw.githubusercontent.com/ignaciocastro/a-dove-is-dumb/main/127.txt"

  const HostPrefix: string := "127.0.0.1 "

  // ---------------------------------------------------------------- extraction

  /** The case-insensitive "adobe" test. */
  predicate IsAdobe(domain: string) {
    Contains(Lower(domain), "adobe")
  }

  /**
   * The host of a hosts-file line: for a stripped line starting "127.0.0.1 ",
   * `line.split(" ")[1]`, the text after the prefix's space up to the next
   * space.
   */
  function HostName(line: string): Option<string> {
    var s := Strip(line);
    if s != "" && StartsWith(s, HostPrefix) then Some(UpToSpace(s[|HostPrefix|..])) else None
  }

  /**
   * A line has a host exactly when its stripped text starts with the prefix;
   * the host then follows the prefix, has no space, and ends the stripped
   * line or is followed by a space.
   */
  lemma HostNameShape(line: string)
    ensures HostName(line).None? <==> !StartsWith(Strip(line), HostPrefix)
    ensures HostName(line).Some? ==>
      var s, host := Strip(line), HostName(line).value;
      var n := |HostPrefix| + |host|;
      && n <= |s| && s[..n] == HostPrefix + host
      && (n == |s| || s[n] == ' ')
      && forall j :: 0 <= j < |host| ==> host[j] != ' '
  {
    var s := Strip(line);
    if StartsWith(s, HostPrefix) {
      var host := UpToSpace(s[|HostPrefix|..]);
      assert s[..|HostPrefix| + |host|] == s[..|HostPrefix|] + s[|HostPrefix|..][..|host|];
    }
  }

  /** What one line contributes: its host if that host is an Adobe one. */
  function Selected(line: string): seq<string> {
    match HostName(line)
    case Some(host) => if IsAdobe(host) then [host] else []
    case None => []
  }

  /** The domains `extract_adobe_domains` finds in a downloaded text. */
  function Extracted(content: string): seq<string> {
    FlatMap(Selected, SplitLines(content))
  }

  /** `extract_adobe_domains`: one pass over the lines, appending the hosts kept. */
  method ExtractAdobeDomains(content: string) returns (domains: seq<string>)
    ensures domains == Extracted(content)
  {
    var lines := SplitLines(content);
    domains := [];
    for i := 0 to |lines|
      invariant domains == FlatMap(Selected, lines[..i])
    {
      FlatMapSnoc(Selected, lines, i);
      var line := Strip(lines[i]);
      if line != "" && StartsWith(line, HostPrefix) {
        var domain := UpToSpace(line[|HostPrefix|..]);
        assert HostName(lines[i]) == Some(domain);
        if Contains(Lower(domain), "adobe") {
          domains := domains + [domain];
        }
      } else {
        assert Selected(lines[i]) == [];
      }
    }
    assert lines[..|lines|] == lines;
  }

  /** A line contributes at most one domain: its host, exactly when that host is an Adobe one. */
  lemma SelectedMeaning(line: string, d: string)
    ensures |Selected(line)| <= 1
    ensures d in Selected(line) <==> HostName(line) == Some(d) && IsAdobe(d)
  {
  }

  /**
   * A domain is extracted exactly when it is an Adobe one and some line of
   * the text has it as its host; there are at most as many domains as lines.
   */
  lemma ExtractedMember(content: string, d: string)
    ensures d in Extracted(content) <==>
      IsAdobe(d) && exists j :: 0 <= j < |SplitLines(content)| && HostName(SplitLines(content)[j]) == Some(d)
    ensures |Extracted(content)| <= |SplitLines(content)|
  {
    var lines := SplitLines(content);
    FlatMapMember(Selected, lines, d);
    forall j | 0 <= j < |lines|
      ensures d in Selected(lines[j]) <==> HostName(lines[j]) == Some(d) && IsAdobe(d)
    {
      SelectedMeaning(lines[j], d);
    }
    forall x | x in lines
      ensures |Selected(x)| <= 1
    {
      SelectedMeaning(x, d);
    }
    FlatMapBound(Selected, lines);
  }

  /**
   * A line made of the prefix and one host with no white space or line break
   * in it yields that host, and the line contributes it exactly when it is an
   * Adobe one.
   */
  lemma HostOfPlainLine(host: string)
    requires host != ""
    requires forall j :: 0 <= j < |host| ==> !IsSpace(host[j]) && !IsLineBreak(host[j])
    ensures HostName(HostPrefix + host) == Some(host)
    ensures Extracted(HostPrefix + host) == if IsAdobe(host) then [host] else []
  {
    var line := HostPrefix + host;
    assert forall j :: 0 <= j < |line| ==> !IsLineBreak(line[j]) by {
      forall j | 0 <= j < |line| ensures !IsLineBreak(line[j]) {
        if j >= |HostPrefix| {
          assert line[j] == host[j - |HostPrefix|];
        }
      }
    }
    NoBreak(line);
    assert line[|line| - 1] == host[|host| - 1];
    NoSpaceAround(line);
    assert line[..|HostPrefix|] == HostPrefix && line[|HostPrefix|..] == host;
    NoSpaceTaken(host);
    assert HostName(line) == Some(host);
    assert [line][..0] == [];
    assert Extracted(line) == FlatMap(Selected, []) + Selected(line);
  }

  lemma {:induction false} NoBreak(s: string)
    requires s != "" && forall j :: 0 <= j < |s| ==> !IsLineBreak(s[j])
    ensures SplitLines(s) == [s]
  {
    NoBreakAt(s);
  }

  lemma {:induction false} NoBreakAt(s: string)
    requires forall j :: 0 <= j < |s| ==> !IsLineBreak(s[j])
    ensures BreakAt(s) == |s|
    decreases |s|
  {
    if s != "" {
      NoBreakAt(s[1..]);
    }
  }

  lemma NoSpaceAround(s: string)
    requires s != "" && !IsSpace(s[0]) && !IsSpace(s[|s| - 1])
    ensures Strip(s) == s
  {
  }

  lemma {:induction false} NoSpaceTaken(s: string)
    requires forall j :: 0 <= j < |s| ==> s[j] != ' '
    ensures UpToSpace(s) == s
    decreases |s|
  {
    if s != "" {
      NoSpaceTaken(s[1..]);
    }
  }

  // ---------------------------------------------------------------- download

  datatype Response = Error | Response(status: int, body: string)

  /** One request: a usable answer is a 200 whose body yields at least one domain. */
  function Attempt(fetch: string -> Response, url: string): Option<seq<string>> {
    match fetch(url)
    case Error => None
    case Response(status, body) =>
      if status == 200 && Extracted(body) != [] then Some(Extracted(body)) else None
  }

  /** A request is usable exactly when it answers 200 with a body that yields a domain, and then gives those domains. */
  lemma AttemptMeaning(fetch: string -> Response, url: string)
    ensures Attempt(fetch, url).Some? <==>
      fetch(url).Response? && fetch(url).status == 200 && Extracted(fetch(url).body) != []
    ensures Attempt(fetch, url).Some? ==> Attempt(fetch, url).value == Extracted(fetch(url).body)
  {
  }

  /** One request per URL, as a function the mirror chain consults. */
  function Attempts(fetch: string -> Response): string -> Option<seq<string>> {
    url => Attempt(fetch, url)
  }

  function MirrorUrl(proxy: string): string {
    proxy + UpstreamPath
  }

  /** The request URLs of a list of mirrors, in order. */
  function MirrorUrls(proxies: seq<string>): (urls: seq<string>)
    ensures |urls| == |proxies| && forall j :: 0 <= j < |proxies| ==> urls[j] == MirrorUrl(proxies[j])
  {
    seq(|proxies|, j requires 0 <= j < |proxies| => MirrorUrl(proxies[j]))
  }

  /**
   * The mirror chain: the first usable answer, and the URLs requested to get
   * it; `attempt` is what one request to a URL gives.
   */
  function Fallback(attempt: string -> Option<seq<string>>, proxies: seq<string>): (Option<seq<string>>, seq<string>)
    decreases |proxies|
  {
    if proxies == [] then (None, [])
    else
      var url := MirrorUrl(proxies[0]);
      match attempt(url)
      case Some(domains) => (Some(domains), [url])
      case None =>
        var (domains, tried) := Fallback(attempt, proxies[1..]);
        (domains, [url] + tried)
  }

  /**
   * The mirror chain asks the mirrors in order and stops at the first usable
   * answer: the URLs requested are a prefix of the mirror URLs, every answer
   * before the last was unusable, the last one's domains are returned, and
   * only when all mirrors fail is the result `None`, after asking every one.
   */
  lemma FallbackOutcome(attempt: string -> Option<seq<string>>, proxies: seq<string>)
    ensures var (domains, tried) := Fallback(attempt, proxies);
      && |tried| <= |proxies| && tried == MirrorUrls(proxies)[..|tried|]
      && (proxies != [] ==> |tried| >= 1)
      && (forall j :: 0 <= j < |tried| - 1 ==> attempt(tried[j]).None?)
      && (domains.Some? ==> domains == attempt(tried[|tried| - 1]))
      && (domains.None? ==> tried == MirrorUrls(proxies) && forall j :: 0 <= j < |tried| ==> attempt(tried[j]).None?)
  {
    FallbackTried(attempt, proxies);
    FallbackAnswers(attempt, proxies);
  }

  /** The URLs the chain requests are a nonempty prefix of the mirror URLs, all of them when nothing was found. */
  lemma {:induction false} FallbackTried(attempt: string -> Option<seq<string>>, proxies: seq<string>)
    ensures var (domains, tried) := Fallback(attempt, proxies);
      && |tried| <= |proxies| && tried == MirrorUrls(proxies)[..|tried|]
      && (proxies != [] ==> |tried| >= 1)
      && (domains.None? ==> |tried| == |proxies|)
    decreases |proxies|
  {
    if proxies != [] {
      FallbackTried(attempt, proxies[1..]);
      assert MirrorUrls(proxies) == [MirrorUrl(proxies[0])] + MirrorUrls(proxies[1..]);
    }
  }

  /** Every requested URL but the last gave nothing usable; the last one's answer is the result. */
  lemma {:induction false} FallbackAnswers(attempt: string -> Option<seq<string>>, proxies: seq<string>)
    ensures var (domains, tried) := Fallback(attempt, proxies);
      && (forall j :: 0 <= j < |tried| - 1 ==> attempt(tried[j]).None?)
      && (domains.Some? ==> tried != [] && domains == attempt(tried[|tried| - 1]))
      && (domains.None? ==> forall j :: 0 <= j < |tried| ==> attempt(tried[j]).None?)
    decreases |proxies|
  {
    if proxies != [] {
      FallbackAnswers(attempt, proxies[1..]);
      var url := MirrorUrl(proxies[0]);
      if attempt(url).None? {
        var (domains, tried) := Fallback(attempt, proxies[1..]);
        assert forall j :: 1 <= j < |tried| + 1 ==> ([url] + tried)[j] == tried[j - 1];
      }
    }
  }

  /** If mirrors 0..k-1 fail and mirror k answers, the chain returns mirror k's domains and asks nothing after it. */
  lemma {:induction false} FallbackStopsAt(attempt: string -> Option<seq<string>>, proxies: seq<string>, k: nat)
    requires k < |proxies|
    requires forall j :: 0 <= j < k ==> attempt(MirrorUrl(proxies[j])).None?
    requires attempt(MirrorUrl(proxies[k])).Some?
    ensures Fallback(attempt, proxies) == (attempt(MirrorUrl(proxies[k])), MirrorUrls(proxies)[..k + 1])
    decreases k
  {
    var url := MirrorUrl(proxies[0]);
    if k == 0 {
      assert MirrorUrls(proxies)[..1] == [url];
    } else {
      var rest := proxies[1..];
      assert rest[k - 1] == proxies[k];
      assert forall j :: 0 <= j < k - 1 ==> rest[j] == proxies[j + 1];
      FallbackStopsAt(attempt, rest, k - 1);
      assert attempt(url).None?;
      assert MirrorUrls(proxies)[..k + 1] == [url] + MirrorUrls(rest)[..k];
    }
  }

  /** If every mirror fails, the chain answers `None` after asking all of them. */
  lemma {:induction false} FallbackAllFail(attempt: string -> Option<seq<string>>, proxies: seq<string>)
    requires forall j :: 0 <= j < |proxies| ==> attempt(MirrorUrl(proxies[j])).None?
    ensures Fallback(attempt, proxies) == (None, MirrorUrls(proxies))
    decreases |proxies|
  {
    if proxies != [] {
      assert MirrorUrls(proxies) == [MirrorUrl(proxies[0])] + MirrorUrls(proxies[1..]);
      assert forall j :: 0 <= j < |proxies| - 1 ==> proxies[1..][j] == proxies[j + 1];
      FallbackAllFail(attempt, proxies[1..]);
    }
  }

  /** `try_download_with_proxies`: ask each built-in mirror in turn, logging each URL before asking. */
  method TryDownloadWithProxies(fetch: string -> Response) returns (domains: Option<seq<string>>, tried: seq<string>)
    ensures (domains, tried) == Fallback(Attempts(fetch), GithubProxies)
  {
    domains, tried := TryMirrors(fetch, GithubProxies);
  }

  /**
   * The loop of `try_download_with_proxies`, over any list of mirrors: what
   * is left to do after `i` mirrors is the chain over the remaining ones.
   */
  method TryMirrors(fetch: string -> Response, proxies: seq<string>) returns (domains: Option<seq<string>>, tried: seq<string>)
    ensures (domains, tried) == Fallback(Attempts(fetch), proxies)
  {
    tried := [];
    assert proxies[0..] == proxies;
    for i := 0 to |proxies|
      invariant Fallback(Attempts(fetch), proxies).0 == Fallback(Attempts(fetch), proxies[i..]).0
      invariant Fallback(Attempts(fetch), proxies).1 == tried + Fallback(Attempts(fetch), proxies[i..]).1
    {
      var url := proxies[i] + UpstreamPath;
      FallbackStep(Attempts(fetch), proxies, i);
      AttemptMeaning(fetch, url);
      tried := tried + [url];
      var response := fetch(url);
      if response.Response? && response.status == 200 {
        var found := ExtractAdobeDomains(response.body);
        if found != [] {
          return Some(found), tried;
        }
      }
    }
    assert proxies[|proxies|..] == [];
    assert Fallback(Attempts(fetch), proxies[|proxies|..]) == (None, []);
    assert tried + [] == tried;
    return None, tried;
  }

  /** One step of the chain from mirror `i` on. */
  lemma FallbackStep(attempt: string -> Option<seq<string>>, proxies: seq<string>, i: nat)
    requires i < |proxies|
    ensures var url, next := MirrorUrl(proxies[i]), Fallback(attempt, proxies[i + 1..]);
      Fallback(attempt, proxies[i..]) == if attempt(url).Some? then (attempt(url), [url]) else (next.0, [url] + next.1)
  {
    assert proxies[i..][1..] == proxies[i + 1..];
  }

  /** `download_adobe_block_list`: the mirror chain's domains, or `None`. */
  method DownloadAdobeBlockList(fetch: string -> Response) returns (domains: Option<seq<string>>)
    ensures domains == Fallback(Attempts(fetch), GithubProxies).0
    ensures domains.Some? ==> domains.value != []
  {
    var tried;
    domains, tried := TryDownloadWithProxies(fetch);
    FallbackOutcome(Attempts(fetch), GithubProxies);
    if domains.Some? {
      AttemptMeaning(fetch, tried[|tried| - 1]);
    }
    if domains.Some? && domains.value != [] {
      return domains;
    }
    return None;
  }

  /** A user-given proxy base gets a trailing '/' unless it has one. */
  function NormaliseProxy(proxy: string): (r: string)
    ensures EndsWith(r, "/")
    ensures EndsWith(proxy, "/") ==> r == proxy
    ensures !EndsWith(proxy, "/") ==> r == proxy + "/"
  {
    if EndsWith(proxy, "/") then proxy else proxy + "/"
  }

  lemma NormaliseIdempotent(proxy: string)
    ensures NormaliseProxy(NormaliseProxy(proxy)) == NormaliseProxy(proxy)
  {
  }

  /**
   * `try_download_with_custom_proxy`: one request to the normalised base
   * followed by the block list's full address; any failure gives `None`.
   */
  function TryDownloadWithCustomProxy(fetch: string -> Response, proxy: string): (r: Option<seq<string>>)
    ensures var url := NormaliseProxy(proxy) + UpstreamUrl;
      && (r.Some? <==> fetch(url).Response? && fetch(url).status == 200 && Extracted(fetch(url).body) != [])
      && (r.Some? ==> r.value == Extracted(fetch(url).body))
  {
    AttemptMeaning(fetch, NormaliseProxy(proxy) + UpstreamUrl);
    Attempt(fetch, NormaliseProxy(proxy) + UpstreamUrl)
  }

  // ---------------------------------------------------------------- the script

  const AllowPhotoApi: string := "    \"DOMAIN-SUFFIX,photo-api.adobe.io,DIRECT\""

  const RejectAdobeIo: string := "  adobe_rules.push(\"DOMAIN-SUFFIX,adobe.io,REJECT\");"

  const RejectAdobeStats: string := "  adobe_rules.push(\"DOMAIN-SUFFIX,adobestats.io,REJECT\");"

  /** The lines of the template before the generated rules. */
  const ScriptHead: seq<string> := [
    "// Adobe屏蔽规则 - 由 clash_verge_adobe_block.py 生成",
    "function main(config) {",
    "  // 确保配置对象存在",
    "  if (!config) {",
    "    config = {};",
    "  }",
    "  ",
    "  // 确保rules数组存在",
    "  if (!config.rules) {",
    "    config.rules = [];",
    "  }",
    "  ",
    "  // Adobe屏蔽规则 - 允许photo-api",
    "  const adobe_rules = [",
    AllowPhotoApi,
    "  ];",
    "  ",
    "  // Adobe屏蔽规则 - 固定规则",
    RejectAdobeIo,
    RejectAdobeStats,
    "  ",
    "  // Adobe屏蔽规则 - 从屏蔽列表生成"
  ]

  /** The template after the generated rules (its first, empty line ends the rules' last line). */
  const ScriptTail: seq<string> := [
    "",
    "  ",
    "  // 将规则添加到配置的开头",
    "  config.rules = adobe_rules.concat(config.rules);",
    "  ",
    "  return config;",
    "}"
  ]

  /** A domain gets a rule when it mentions "adobe" in any case and does not contain "adobe.io" as written. */
  predicate Blocked(domain: string) {
    IsAdobe(domain) && !Contains(domain, "adobe.io")
  }

  function RuleLine(domain: string): string {
    "  adobe_rules.push(\"DOMAIN-SUFFIX," + domain + ",REJECT\");"
  }

  /** The rule line a domain gets, if any. */
  function RuleOf(domain: string): seq<string> {
    if Blocked(domain) then [RuleLine(domain)] else []
  }

  /** The script `create_adobe_block_script` renders: the template around the "\n"-joined rule lines. */
  function Render(domains: seq<string>): string {
    Unlines(ScriptHead) + Join(FlatMap(RuleOf, domains), "\n") + Unlines(ScriptTail)
  }

  /** `create_adobe_block_script`: collect the rule lines, then fill the template. */
  method CreateAdobeBlockScript(domains: seq<string>) returns (script: string)
    ensures script == Render(domains)
  {
    var domainRules: seq<string> := [];
    for i := 0 to |domains|
      invariant domainRules == FlatMap(RuleOf, domains[..i])
    {
      assert domains[..i + 1][..i] == domains[..i];
      var domain := domains[i];
      if Contains(Lower(domain), "adobe") && !Contains(domain, "adobe.io") {
        domainRules := domainRules + ["  adobe_rules.push(\"DOMAIN-SUFFIX," + domain + ",REJECT\");"];
      }
    }
    assert domains[..|domains|] == domains;
    script := Unlines(ScriptHead) + Join(domainRules, "\n") + Unlines(ScriptTail);
  }

  /** Exactly one rule line per domain that passes the filter, in the order of the input. */
  lemma {:induction false} RuleLinesOfBlocked(domains: seq<string>)
    ensures |FlatMap(RuleOf, domains)| == |Filter(Blocked, domains)|
    ensures forall k :: 0 <= k < |FlatMap(RuleOf, domains)| ==>
      FlatMap(RuleOf, domains)[k] == RuleLine(Filter(Blocked, domains)[k])
    decreases |domains|
  {
    if domains != [] {
      RuleLinesOfBlocked(domains[..|domains| - 1]);
    }
  }

  lemma RuleLineInjective(a: string, b: string)
    requires RuleLine(a) == RuleLine(b)
    ensures a == b
  {
    var pre := "  adobe_rules.push(\"DOMAIN-SUFFIX,";
    assert RuleLine(a)[|pre|..|pre| + |a|] == a;
    assert RuleLine(b)[|pre|..|pre| + |b|] == b;
  }

  /** A domain has a rule line exactly when it is in the input and passes the filter. */
  lemma RuleLineMember(domains: seq<string>, d: string)
    ensures RuleLine(d) in FlatMap(RuleOf, domains) <==> d in domains && Blocked(d)
  {
    FlatMapMember(RuleOf, domains, RuleLine(d));
    if RuleLine(d) in FlatMap(RuleOf, domains) {
      var j :| 0 <= j < |domains| && RuleLine(d) in RuleOf(domains[j]);
      RuleLineInjective(d, domains[j]);
    }
    if d in domains && Blocked(d) {
      var j :| 0 <= j < |domains| && domains[j] == d;
      assert RuleLine(d) in RuleOf(domains[j]);
    }
  }

  /** The allow rule and the two fixed reject rules are lines of the script for every input, the empty one included. */
  lemma FixedRulesPresent(domains: seq<string>)
    ensures Contains(Render(domains), AllowPhotoApi + "\n")
    ensures Contains(Render(domains), RejectAdobeIo + "\n")
    ensures Contains(Render(domains), RejectAdobeStats + "\n")
  {
    var head, rules := Unlines(ScriptHead), Join(FlatMap(RuleOf, domains), "\n");
    assert ScriptHead[14] == AllowPhotoApi && ScriptHead[18] == RejectAdobeIo && ScriptHead[19] == RejectAdobeStats;
    forall line | line in {AllowPhotoApi, RejectAdobeIo, RejectAdobeStats}
      ensures Contains(Render(domains), line + "\n")
    {
      var k := if line == AllowPhotoApi then 14 else if line == RejectAdobeIo then 18 else 19;
      UnlinesLine(ScriptHead, k);
      ContainsExtend(head, rules, line + "\n");
      ContainsExtend(head + rules, Unlines(ScriptTail), line + "\n");
    }
  }

  /**
   * The "adobe.io" exclusion is case-sensitive while the "adobe" test is not:
   * a domain that contains "adobe.io" only up to letter case (such as
   * "cdn.ADOBE.IO") still gets a rule.
   */
  lemma AdobeIoExclusionCaseSensitive(domain: string)
    requires Contains(Lower(domain), "adobe.io") && !Contains(domain, "adobe.io")
    ensures Blocked(domain)
  {
    assert "adobe.io" == "adobe" + ".io";
    ContainsShorter(Lower(domain), "adobe", ".io");
  }

  // ---------------------------------------------------------------- applying the patch

  /** The domains the patch is built from: the caller's, else the mirrors', else the built-in list. */
  function DomainsFor(fetch: string -> Response, domains: Option<seq<string>>): seq<string> {
    match domains
    case Some(given) => given
    case None =>
      match Fallback(Attempts(fetch), GithubProxies).0
      case Some(downloaded) => downloaded
      case None => BuiltinAdobeDomains
  }

  /**
   * Without a given list, the built-in one is used only when every mirror
   * was asked and failed; otherwise the first usable mirror's list is used,
   * and it is not empty.
   */
  lemma DomainsForTiers(fetch: string -> Response)
    ensures var (downloaded, tried) := Fallback(Attempts(fetch), GithubProxies);
      && (downloaded.None? ==>
            && DomainsFor(fetch, None) == BuiltinAdobeDomains
            && tried == MirrorUrls(GithubProxies)
            && forall j :: 0 <= j < |GithubProxies| ==> Attempt(fetch, MirrorUrl(GithubProxies[j])).None?)
      && (downloaded.Some? ==> DomainsFor(fetch, None) == downloaded.value != [])
  {
    FallbackOutcome(Attempts(fetch), GithubProxies);
    var (downloaded, tried) := Fallback(Attempts(fetch), GithubProxies);
    if downloaded.Some? {
      AttemptMeaning(fetch, tried[|tried| - 1]);
    }
  }

  /** `modify_clash_verge_script` on the profiles directory. */
  function ApplyEffect(files: map<Name, string>, present: bool, denied: set<Name>, host: Host,
                       listing: seq<Name>, fetch: string -> Response, domains: Option<seq<string>>)
    : (Report, map<Name, string>)
    requires host.now.Valid()
  {
    if ProfilesDirectory(host.system, host.home).None? then (Failed(Exception), files)
    else
      match GlobalScript(present, listing)
      case None => (Failed(ScriptNotFound), files)
      case Some(script) =>
        BackupThenWrite(files, denied, script, BackupName(script, host.now), Render(DomainsFor(fetch, domains)))
  }

  /** Back `target` up under the name `b`, then overwrite it with `text`. */
  function BackupThenWrite(files: map<Name, string>, denied: set<Name>, target: Name, b: Name, text: string)
    : (Report, map<Name, string>)
  {
    match BackupTo(files, denied, target, b)
    case (SourceMissing, _) => (Failed(BackupFailed), files)
    case (BackupError, _) => (Failed(Exception), files)
    case (BackedUp(_), files') =>
      if target in denied then (Failed(Exception), files') else (Done(target), files'[target := text])
  }

  /**
   * Applying the patch either changes nothing, or only adds the backup of
   * the global script, or adds that backup and then overwrites the script
   * with the rendered text, so that the old script survives under its backup
   * name; the script is never written without its backup, and a script that
   * is listed but missing is not created.
   */
  lemma ApplyOutcome(files: map<Name, string>, present: bool, denied: set<Name>, host: Host,
                     listing: seq<Name>, fetch: string -> Response, domains: Option<seq<string>>)
    requires host.now.Valid()
    ensures var (r, files') := ApplyEffect(files, present, denied, host, listing, fetch, domains);
      var script := GlobalScript(present, listing);
      && (script.None? ==> r.Failed? && files' == files)
      && (script.Some? && script.value !in files ==> r.Failed? && files' == files)
      && (r.Done? ==>
            && script == Some(r.file) && r.file in files && BackupName(r.file, host.now) != r.file
            && files' == files[BackupName(r.file, host.now) := files[r.file]][r.file := Render(DomainsFor(fetch, domains))])
      && (r.Failed? ==>
            files' == files
            || (script.Some? && script.value in files
                && files' == files[BackupName(script.value, host.now) := files[script.value]]))
  {
    var script := GlobalScript(present, listing);
    if ProfilesDirectory(host.system, host.home).Some? && script.Some? {
      var b, text := BackupName(script.value, host.now), Render(DomainsFor(fetch, domains));
      assert ApplyEffect(files, present, denied, host, listing, fetch, domains)
          == BackupThenWrite(files, denied, script.value, b, text);
      BackupThenWriteOutcome(files, denied, script.value, b, text);
      BackupNameShape(script.value, host.now);
    }
  }

  /**
   * Backing up then writing: a missing target fails before anything is
   * written; success adds the backup and then replaces the target; any other
   * failure leaves at most the backup behind.
   */
  lemma BackupThenWriteOutcome(files: map<Name, string>, denied: set<Name>, target: Name, b: Name, text: string)
    ensures var (r, files') := BackupThenWrite(files, denied, target, b, text);
      && (target !in files ==> r == Failed(BackupFailed) && files' == files)
      && (r.Done? ==> r.file == target && target in files && files' == files[b := files[target]][target := text])
      && (r.Failed? ==> files' == files || (target in files && files' == files[b := files[target]]))
  {
  }

  /**
   * Applying the patch succeeds exactly when the profiles directory is known,
   * a global script is listed and exists, and both its backup and the script
   * itself may be written.
   */
  lemma ApplySucceeds(files: map<Name, string>, present: bool, denied: set<Name>, host: Host,
                      listing: seq<Name>, fetch: string -> Response, domains: Option<seq<string>>)
    requires host.now.Valid()
    ensures var (r, _) := ApplyEffect(files, present, denied, host, listing, fetch, domains);
      var script := GlobalScript(present, listing);
      r.Done? <==>
        && ProfilesDirectory(host.system, host.home).Some? && script.Some? && script.value in files
        && BackupName(script.value, host.now) !in denied && script.value !in denied
  {
    var script := GlobalScript(present, listing);
    if ProfilesDirectory(host.system, host.home).Some? && script.Some? {
      var b, text := BackupName(script.value, host.now), Render(DomainsFor(fetch, domains));
      assert ApplyEffect(files, present, denied, host, listing, fetch, domains)
          == BackupThenWrite(files, denied, script.value, b, text);
      BackupThenWriteSucceeds(files, denied, script.value, b, text);
    }
  }

  /** Backing up then writing succeeds exactly when the target exists and both names may be written. */
  lemma BackupThenWriteSucceeds(files: map<Name, string>, denied: set<Name>, target: Name, b: Name, text: string)
    ensures BackupThenWrite(files, denied, target, b, text).0.Done? <==>
              target in files && b !in denied && target !in denied
  {
  }

  /** `modify_clash_verge_script`: find the script, get the domains, render, back up, write. */
  method ModifyClashVergeScript(store: Profiles, host: Host, listing: seq<Name>,
                                fetch: string -> Response, domains: Option<seq<string>>) returns (r: Report)
    requires store.Valid() && host.now.Valid()
    modifies store`files
    ensures store.Valid()
    ensures (r, store.files) == ApplyEffect(old(store.files), store.present, store.denied, host, listing, fetch, domains)
  {
    if ProfilesDirectory(host.system, host.home).None? {
      return Failed(Exception);
    }
    var script := FindGlobalScript(store.present, listing);
    if script.None? {
      return Failed(ScriptNotFound);
    }
    var chosen := ChooseDomains(fetch, domains);
    var newScript := CreateAdobeBlockScript(chosen);
    r := WriteWithBackup(store, script.value, newScript, host.now);
  }

  /** The domain choice in `modify_clash_verge_script`: the given list, else a download, else the built-in list. */
  method ChooseDomains(fetch: string -> Response, domains: Option<seq<string>>) returns (chosen: seq<string>)
    ensures chosen == DomainsFor(fetch, domains)
  {
    if domains.Some? {
      return domains.value;
    }
    var downloaded := DownloadAdobeBlockList(fetch);
    if downloaded.None? {
      return BuiltinAdobeDomains;
    }
    return downloaded.value;
  }

  /** The last steps of `modify_clash_verge_script`: back the script up, then overwrite it. */
  method WriteWithBackup(store: Profiles, target: Name, text: string, now: DateTime) returns (r: Report)
    requires store.Valid() && now.Valid()
    modifies store`files
    ensures store.Valid()
    ensures (r, store.files) == BackupThenWrite(old(store.files), store.denied, target, BackupName(target, now), text)
  {
    var backup := store.Backup(target, now);
    if backup == SourceMissing {
      return Failed(BackupFailed);
    } else if backup == BackupError {
      return Failed(Exception);
    }
    assert target in store.files;
    var written := store.Write(target, text);
    if !written {
      return Failed(Exception);
    }
    return Done(target);
  }
}

=== FILE: core.dfy ===
/**
 * The shared core of the tool (clash_verge_core.py): where the proxy
 * application keeps its profiles, how the global script is picked out of
 * the profiles directory, and the timestamp-named backup/restore scheme.
 *
 * The profiles directory is the file store `Profiles`: whether it exists,
 * a map from file name to contents, and the names a write to which raises
 * (permission denied and the like). Directory listings (the order `glob`
 * enumerates names in) are parameters, so a listing may be stale.
 */
module Core {
  import opened Wrappers
  import opened Text
  import opened Timestamp

  type Name = string
  type Path = seq<string>

  /** What the code asks the host for: `platform.system()`, `Path.home()` and `datetime.now()`. */
  datatype Host = Host(system: string, home: Path, now: DateTime)

  // ---------------------------------------------------------------- paths

  /** The application's configuration directory for a host OS; `None` where the code raises `OSError`. */
  function ClashVergeDirectory(system: string, home: Path): (dir: Option<Path>)
    ensures dir.Some? <==> system == "Windows" || system == "Darwin" || system == "Linux"
    ensures dir.Some? ==> |dir.value| > |home| && dir.value[..|home|] == home
  {
    if system == "Windows" then Some(home + ["AppData", "Roaming", "io.github.clash-verge-rev.clash-verge-rev"])
    else if system == "Darwin" then Some(home + ["Library", "Application Support", "io.github.clash-verge-rev"])
    else if system == "Linux" then Some(home + [".config", "clash-verge"])
    else None
  }

  /** The `profiles` directory below the configuration directory. */
  function ProfilesDirectory(system: string, home: Path): (dir: Option<Path>)
    ensures dir.Some? <==> ClashVergeDirectory(system, home).Some?
    ensures dir.Some? ==> |dir.value| > 0 && dir.value[|dir.value| - 1] == "profiles"
                          && dir.value[..|dir.value| - 1] == ClashVergeDirectory(system, home).value
  {
    match ClashVergeDirectory(system, home)
    case None => None
    case Some(d) => Some(d + ["profiles"])
  }

  // ---------------------------------------------------------------- names

  /** Index of the last '.' in `s`. */
  function LastDot(s: string): (r: Option<nat>)
    ensures r.Some? ==> r.value < |s| && s[r.value] == '.' && forall j :: r.value < j < |s| ==> s[j] != '.'
    ensures r.None? ==> forall j :: 0 <= j < |s| ==> s[j] != '.'
    decreases |s|
  {
    if s == "" then None else if s[|s| - 1] == '.' then Some(|s| - 1) else LastDot(s[..|s| - 1])
  }

  /** `Path.suffix`: from the last '.' on, unless that dot leads or ends the name. */
  function Suffix(name: Name): (r: string)
    ensures r == "" || (2 <= |r| < |name| && r[0] == '.' && EndsWith(name, r)
                        && forall j :: 1 <= j < |r| ==> r[j] != '.')
  {
    match LastDot(name)
    case None => ""
    case Some(i) => if 0 < i < |name| - 1 then name[i..] else ""
  }

  /** `Path.stem`: the name without its suffix. */
  function Stem(name: Name): (r: string)
    ensures r + Suffix(name) == name
  {
    name[..|name| - |Suffix(name)|]
  }

  /**
   * The backup of `name` taken at `now`: `Path.with_suffix(".bak.<stamp>")`,
   * which REPLACES the last extension, so `script.js` becomes
   * `script.bak.<stamp>`.
   */
  function BackupName(name: Name, now: DateTime): Name
    requires now.Valid()
  {
    Stem(name) + ".bak." + Stamp(now)
  }

  /** `name.split(".bak.")[0]`: the name a backup is restored to. */
  function OriginalName(backup: Name): (r: Name)
    ensures StartsWith(backup, r)
    ensures !Contains(backup, ".bak.") ==> r == backup
    ensures Contains(backup, ".bak.") ==> StartsWith(backup[|r|..], ".bak.")
    ensures forall j :: 0 <= j < |r| ==> !StartsWith(backup[j..], ".bak.")
  {
    Before(backup, ".bak.")
  }

  /** `suffix.split('.')[-1]`: the text after the dot of the last suffix. */
  function BackupStamp(name: Name): (stamp: string)
    ensures Suffix(name) == "" ==> stamp == ""
    ensures Suffix(name) != "" ==> "." + stamp == Suffix(name)
  {
    var sfx := Suffix(name);
    if sfx == "" then "" else sfx[1..]
  }

  const UnknownTime: string := "未知时间"

  /** The time a backup was taken, as the listing shows it. */
  function ExtractBackupTime(backup: Name): (r: string)
    ensures r == UnknownTime <==> ParseStamp(BackupStamp(backup)).None?
    ensures r != UnknownTime ==> r == Display(ParseStamp(BackupStamp(backup)).value)
  {
    match ParseStamp(BackupStamp(backup))
    case Some(t) => Display(t)
    case None => UnknownTime
  }

  // ---------------------------------------------------------------- name lemmas

  lemma {:induction false} LastDotAt(a: string, b: string)
    requires forall j :: 0 <= j < |b| ==> b[j] != '.'
    ensures LastDot(a + "." + b) == Some(|a|)
  {
    var s := a + "." + b;
    assert s[|a|] == '.';
    assert forall j :: |a| < j < |s| ==> s[j] == b[j - |a| - 1];
  }

  /**
   * A name has a nonempty suffix exactly when its last dot sits strictly
   * inside it (neither first nor last); the suffix then runs from that dot.
   */
  lemma SuffixMeaning(name: Name)
    ensures Suffix(name) != "" <==>
      exists i :: 0 < i < |name| - 1 && name[i] == '.' && forall j :: i < j < |name| ==> name[j] != '.'
    ensures Suffix(name) != "" ==> Suffix(name) == name[LastDot(name).value..]
  {
    if exists i :: 0 < i < |name| - 1 && name[i] == '.' && forall j :: i < j < |name| ==> name[j] != '.' {
      var i :| 0 < i < |name| - 1 && name[i] == '.' && forall j :: i < j < |name| ==> name[j] != '.';
      assert LastDot(name) == Some(i);
    }
  }

  /** `a.b`, for a nonempty `a` and a nonempty `b` without dots, has suffix `.b` and stem `a`. */
  lemma SuffixOfExtension(a: string, b: string)
    requires a != "" && b != "" && forall j :: 0 <= j < |b| ==> b[j] != '.'
    ensures Suffix(a + "." + b) == "." + b
    ensures Stem(a + "." + b) == a
  {
    var n := a + "." + b;
    LastDotAt(a, b);
    assert n[|a|..] == "." + b;
  }

  /** A backup name ends in the suffix `.<stamp>` and matches the pattern `*.bak.*`. */
  lemma BackupNameShape(name: Name, now: DateTime)
    requires now.Valid()
    ensures Suffix(BackupName(name, now)) == "." + Stamp(now)
    ensures BackupStamp(BackupName(name, now)) == Stamp(now)
    ensures Contains(BackupName(name, now), ".bak.")
    ensures BackupName(name, now) != name
  {
    var stem, stamp := Stem(name), Stamp(now);
    assert forall j :: 0 <= j < |stamp| ==> stamp[j] != '.' by {
      assert AllDigits(stamp);
    }
    BakNameShape(stem, stamp);
  }

  /** `stem + ".bak." + stamp`, for a stamp without dots, has suffix `"." + stamp` and contains ".bak.". */
  lemma BakNameShape(stem: string, stamp: string)
    requires stamp != "" && forall j :: 0 <= j < |stamp| ==> stamp[j] != '.'
    ensures Suffix(stem + ".bak." + stamp) == "." + stamp
    ensures Contains(stem + ".bak." + stamp, ".bak.")
  {
    var b := stem + ".bak." + stamp;
    assert b == (stem + ".bak") + "." + stamp;
    LastDotAt(stem + ".bak", stamp);
    assert b[|stem| + 4..] == "." + stamp;
    ContainsInfix(stem, ".bak.", stamp);
  }

  /** The listed time of a backup is the time it was taken. */
  lemma BackupTimeOfBackupName(name: Name, now: DateTime)
    requires now.Valid()
    ensures ExtractBackupTime(BackupName(name, now)) == Display(now)
  {
    BackupNameShape(name, now);
    StampRoundTrip(now);
  }

  /** Backups of one file taken at different times have different names. */
  lemma BackupNamesDistinct(name: Name, t1: DateTime, t2: DateTime)
    requires t1.Valid() && t2.Valid() && t1 != t2
    ensures BackupName(name, t1) != BackupName(name, t2)
  {
    if BackupName(name, t1) == BackupName(name, t2) {
      BackupNameShape(name, t1);
      BackupNameShape(name, t2);
      StampInjective(t1, t2);
    }
  }

  /** In `stem + ".bak" + rest`, no ".bak." starts inside `stem` when `stem + ".bak"` holds none. */
  lemma NoBakInStem(stem: string, rest: string, j: nat)
    requires !Contains(stem + ".bak", ".bak.") && j < |stem|
    ensures !StartsWith((stem + ".bak" + rest)[j..], ".bak.")
  {
    var sb := stem + ".bak";
    var b := sb + rest;
    if StartsWith(b[j..], ".bak.") {
      StartsWithWithin(sb, rest, ".bak.", j);
      ContainsAt(sb, ".bak.", j);
    }
  }

  /** A stem without ".bak" gets no ".bak." by appending ".bak". */
  lemma NoBakAppended(stem: string)
    requires !Contains(stem, ".bak")
    ensures !Contains(stem + ".bak", ".bak.")
  {
    var b := stem + ".bak";
    if Contains(b, ".bak.") {
      var j := ContainsWitness(b, ".bak.");
      // the fifth character is a dot, so it cannot fall on the 'b', 'a' or 'k' of ".bak"
      assert b[j + 4] == b[j..j + 5][4] == '.';
      assert j + 4 <= |stem|;
      assert b[j..j + 4] == b[j..j + 5][..4] == ".bak";
      assert stem[j..][..4] == b[j..j + 4];
      ContainsAt(stem, ".bak", j);
    }
  }

  /**
   * A backup is restored to the STEM of the file it was taken of (when no
   * ".bak." starts inside the stem of the backup name), not to the file's own name.
   */
  lemma OriginalNameOfBackup(name: Name, now: DateTime)
    requires now.Valid()
    requires !Contains(Stem(name) + ".bak", ".bak.")
    ensures OriginalName(BackupName(name, now)) == Stem(name)
  {
    var stem, tail := Stem(name), "." + Stamp(now);
    assert BackupName(name, now) == stem + ".bak" + tail;
    OriginalNameOfBak(stem, tail);
  }

  /** The first ".bak." of `stem + ".bak" + tail`, for a `tail` that starts with a dot, follows `stem`. */
  lemma OriginalNameOfBak(stem: string, tail: string)
    requires !Contains(stem + ".bak", ".bak.")
    requires tail != "" && tail[0] == '.'
    ensures OriginalName(stem + ".bak" + tail) == stem
  {
    var b := stem + ".bak" + tail;
    var r := OriginalName(b);
    assert StartsWith(b[|stem|..], ".bak.") by {
      assert b[|stem|..][..5] == ".bak.";
    }
    assert |r| <= |stem|;
    if |r| < |stem| {
      NoBakInStem(stem, tail, |r|);
    }
    assert b[..|stem|] == stem;
  }

  /** For a file without extension the round trip closes: its backup restores to it. */
  lemma OriginalNameOfBackupPlain(name: Name, now: DateTime)
    requires now.Valid()
    requires Suffix(name) == "" && !Contains(name + ".bak", ".bak.")
    ensures OriginalName(BackupName(name, now)) == name
  {
    assert Stem(name) == name;
    OriginalNameOfBackup(name, now);
  }

  /** The script the tool patches, `script.js`, has its backups restored to `script`. */
  lemma ScriptJsRestoresToScript(now: DateTime)
    requires now.Valid()
    ensures OriginalName(BackupName("script.js", now)) == "script"
  {
    assert LastDot("script.js") == Some(6) by {
      LastDotAt("script", "js");
      assert "script" + "." + "js" == "script.js";
    }
    assert Stem("script.js") == "script";
    NotContains("script", ".bak");
    NoBakAppended("script");
    OriginalNameOfBackup("script.js", now);
  }

  // ---------------------------------------------------------------- listings

  /** `glob("*.js")` matches names ending in ".js" (case-sensitively, as on POSIX). */
  predicate IsJs(name: Name) {
    EndsWith(name, ".js")
  }

  /** A `*.js` file whose lower-cased name is `script.js`. */
  predicate IsScriptJs(name: Name) {
    IsJs(name) && Lower(name) == "script.js"
  }

  /** `glob("*.bak.*")` matches names containing ".bak.". */
  predicate IsBackup(name: Name) {
    Contains(name, ".bak.")
  }

  /** The global script `find_global_script` picks from a listing. */
  function GlobalScript(present: bool, listing: seq<Name>): (script: Option<Name>)
    ensures script.Some? ==> present && script.value in listing && IsJs(script.value)
  {
    if !present then None
    else
      var scripts := Filter(IsScriptJs, listing);
      if scripts != [] then FilterMember(IsScriptJs, listing, scripts[0]); Some(scripts[0])
      else
        var js := Filter(IsJs, listing);
        if js != [] then FilterMember(IsJs, listing, js[0]); Some(js[0]) else None
  }

  /**
   * The selection rule: no script when the directory is missing or lists no
   * `.js` file; otherwise the first listed `script.js` (any letter case) if
   * there is one, else the first listed `.js` file.
   */
  lemma GlobalScriptChoice(present: bool, listing: seq<Name>)
    ensures GlobalScript(present, listing).None? <==>
            !present || forall j :: 0 <= j < |listing| ==> !IsJs(listing[j])
    ensures GlobalScript(present, listing).Some? ==>
      var script := GlobalScript(present, listing).value;
      exists k :: 0 <= k < |listing| && listing[k] == script && IsJs(script) &&
        ((IsScriptJs(script) && forall j :: 0 <= j < k ==> !IsScriptJs(listing[j])) ||
         ((forall j :: 0 <= j < |listing| ==> !IsScriptJs(listing[j])) && forall j :: 0 <= j < k ==> !IsJs(listing[j])))
  {
    FilterFirst(IsScriptJs, listing);
    FilterFirst(IsJs, listing);
  }

  /** `find_global_script`: two passes over the `*.js` listing. */
  method FindGlobalScript(present: bool, listing: seq<Name>) returns (script: Option<Name>)
    ensures script == GlobalScript(present, listing)
  {
    if !present {
      return None;
    }
    var scriptFiles: seq<Name> := [];
    for i := 0 to |listing|
      invariant scriptFiles == Filter(IsScriptJs, listing[..i])
    {
      assert listing[..i + 1] == listing[..i] + [listing[i]];
      if IsJs(listing[i]) && Lower(listing[i]) == "script.js" {
        scriptFiles := scriptFiles + [listing[i]];
      }
    }
    assert listing[..|listing|] == listing;
    if scriptFiles == [] {
      for i := 0 to |listing|
        invariant scriptFiles == Filter(IsJs, listing[..i])
      {
        assert listing[..i + 1] == listing[..i] + [listing[i]];
        if IsJs(listing[i]) {
          scriptFiles := scriptFiles + [listing[i]];
        }
      }
    }
    if scriptFiles == [] {
      return None;
    }
    return Some(scriptFiles[0]);
  }

  /** The backups `find_backup_files` lists. */
  function BackupFiles(present: bool, listing: seq<Name>): (backups: seq<Name>)
    ensures forall n :: n in backups <==> present && n in listing && IsBackup(n)
  {
    if present then
      var r := Filter(IsBackup, listing);
      assert forall n :: n in r <==> n in listing && IsBackup(n) by {
        forall n { FilterMember(IsBackup, listing, n); }
      }
      r
    else []
  }

  /** The backups of a listing are those of its parts, in the same order: listing order is kept. */
  lemma BackupFilesKeepOrder(present: bool, a: seq<Name>, b: seq<Name>)
    ensures BackupFiles(present, a + b) == BackupFiles(present, a) + BackupFiles(present, b)
  {
    if present {
      FilterAppend(IsBackup, a, b);
    }
  }

  /** `find_backup_files`: the listed `*.bak.*` names, in listing order. */
  method FindBackupFiles(present: bool, listing: seq<Name>) returns (backups: seq<Name>)
    ensures backups == BackupFiles(present, listing)
  {
    if !present {
      return [];
    }
    backups := [];
    for i := 0 to |listing|
      invariant backups == Filter(IsBackup, listing[..i])
    {
      assert listing[..i + 1] == listing[..i] + [listing[i]];
      if Contains(listing[i], ".bak.") {
        backups := backups + [listing[i]];
      }
    }
    assert listing[..|listing|] == listing;
  }

  // ---------------------------------------------------------------- backup and restore

  /** What `backup_file` gives back: `None`, an exception, or the new backup's name. */
  datatype BackupResult = SourceMissing | BackupError | BackedUp(backup: Name)

  /** Why an operation answered `(False, message)`. */
  datatype Failure =
    | ScriptNotFound       // no global script to patch
    | BackupFailed         // backup_file gave None
    | BackupMissing        // the backup to restore does not exist
    | CurrentNotBackedUp   // the pre-restore snapshot gave None
    | NoBackups            // nothing to choose from
    | InvalidIndex         // a 1-based index outside the listing
    | Exception            // an exception caught by the operation's handler

  /** The `(bool, message)` pair: success names the file written. */
  datatype Report = Done(file: Name) | Failed(why: Failure)

  /** `backup_file(dir/source)` on the store's files; `denied` are the names a write to which raises. */
  function BackupEffect(files: map<Name, string>, denied: set<Name>, source: Name, now: DateTime)
    : (BackupResult, map<Name, string>)
    requires now.Valid()
  {
    BackupTo(files, denied, source, BackupName(source, now))
  }

  /** Copying `source` to the backup name `b`, whatever that name is. */
  function BackupTo(files: map<Name, string>, denied: set<Name>, source: Name, b: Name)
    : (BackupResult, map<Name, string>)
  {
    if source !in files then (SourceMissing, files)
    else if b in denied then (BackupError, files)
    else (BackedUp(b), files[b := files[source]])
  }

  /** `restore_backup(dir/backup, autoBackup)` on the store's files. */
  function RestoreEffect(files: map<Name, string>, denied: set<Name>, backup: Name, autoBackup: bool, now: DateTime)
    : (Report, map<Name, string>)
    requires now.Valid()
  {
    var dest := OriginalName(backup);
    RestoreTo(files, denied, backup, dest, BackupName(dest, now), autoBackup)
  }

  /**
   * `dir / name` is a directory: pathlib drops an empty component and a ".",
   * and ".." is the parent. Backing up or copying a directory raises.
   */
  predicate NamesDirectory(name: Name) {
    name == "" || name == "." || name == ".."
  }

  /** Restoring `backup` onto `dest`, with `snapshot` the name the destination's own backup would get. */
  function RestoreTo(files: map<Name, string>, denied: set<Name>, backup: Name, dest: Name, snapshot: Name, autoBackup: bool)
    : (Report, map<Name, string>)
  {
    if backup !in files then (Failed(BackupMissing), files)
    else if NamesDirectory(dest) then
      // the destination is the directory itself: backing it up or copying onto it raises
      (Failed(Exception), files)
    else if autoBackup && dest in files then
      match BackupTo(files, denied, dest, snapshot)
      case (SourceMissing, _) => (Failed(CurrentNotBackedUp), files)
      case (BackupError, _) => (Failed(Exception), files)
      case (BackedUp(_), files') => CopyBack(files', denied, backup, dest)
    else CopyBack(files, denied, backup, dest)
  }

  /** `shutil.copy2(dir/backup, dir/dest)`: copying a file onto itself raises, as does a refused write. */
  function CopyBack(files: map<Name, string>, denied: set<Name>, backup: Name, dest: Name): (r: (Report, map<Name, string>))
    requires backup in files
    ensures r.0.Failed? ==> r.1 == files
    ensures r.0.Done? ==> r.0.file == dest && dest in r.1 && r.1[dest] == files[backup] && r.1.Keys == files.Keys + {dest}
    ensures forall n :: n in files && n != dest ==> r.1[n] == files[n]
  {
    if dest == backup || dest in denied then (Failed(Exception), files)
    else (Done(dest), files[dest := files[backup]])
  }

  /** The profiles directory. */
  class Profiles {
    var present: bool
    var files: map<Name, string>
    var denied: set<Name>

    ghost predicate Valid()
      reads this
    {
      !present ==> files == map[]
    }

    constructor (present: bool, files: map<Name, string>, denied: set<Name>)
      requires present || files == map[]
      ensures Valid()
      ensures this.present == present && this.files == files && this.denied == denied
    {
      this.present := present;
      this.files := files;
      this.denied := denied;
    }

    /** `backup_file`: copy `source` to its timestamped backup name. */
    method Backup(source: Name, now: DateTime) returns (r: BackupResult)
      requires Valid() && now.Valid()
      modifies this`files
      ensures Valid()
      ensures (r, files) == BackupEffect(old(files), denied, source, now)
    {
      if source !in files {
        return SourceMissing;
      }
      var b := BackupName(source, now);
      if b in denied {
        return BackupError;
      }
      files := files[b := files[source]];
      return BackedUp(b);
    }

    /** `open(dir/name, 'w').write(text)`; false where the write raises. */
    method Write(name: Name, text: string) returns (ok: bool)
      requires Valid() && present
      modifies this`files
      ensures Valid()
      ensures ok == (name !in denied)
      ensures files == if ok then old(files)[name := text] else old(files)
    {
      ok := name !in denied;
      if ok {
        files := files[name := text];
      }
    }

    /** `restore_backup`: optionally snapshot the destination, then copy the backup over it. */
    method Restore(backup: Name, autoBackup: bool, now: DateTime) returns (r: Report)
      requires Valid() && now.Valid()
      modifies this`files
      ensures Valid()
      ensures (r, files) == RestoreEffect(old(files), denied, backup, autoBackup, now)
    {
      if backup !in files {
        return Failed(BackupMissing);
      }
      var dest := OriginalName(backup);
      if NamesDirectory(dest) {
        return Failed(Exception);
      }
      if autoBackup && dest in files {
        var current := Backup(dest, now);
        if current == SourceMissing {
          return Failed(CurrentNotBackedUp);
        } else if current == BackupError {
          return Failed(Exception);
        }
      }
      if dest == backup || dest in denied {
        return Failed(Exception);
      }
      files := files[dest := files[backup]];
      return Done(dest);
    }
  }

  // ---------------------------------------------------------------- store lemmas

  /**
   * `backup_file` adds (or silently overwrites) exactly one entry, named by
   * `BackupName`, holding the source's contents, and leaves the source as it
   * was; a missing source or a refused write changes nothing.
   */
  lemma BackupOutcome(files: map<Name, string>, denied: set<Name>, source: Name, now: DateTime)
    requires now.Valid()
    ensures var (r, files') := BackupEffect(files, denied, source, now);
      && (r == SourceMissing <==> source !in files)
      && (r.BackedUp? <==> source in files && BackupName(source, now) !in denied)
      && (r.SourceMissing? || r.BackupError? ==> files' == files)
      && (r.BackedUp? ==>
            && r.backup == BackupName(source, now) && IsBackup(r.backup)
            && files'.Keys == files.Keys + {r.backup}
            && files'[r.backup] == files[source]
            && source in files' && files'[source] == files[source]
            && forall n :: n in files && n != r.backup ==> files'[n] == files[n])
  {
    BackupNameShape(source, now);
  }

  /** A restore that fails leaves the destination as it was and adds at most the snapshot. */
  lemma RestoreFailureKeepsDestination(files: map<Name, string>, denied: set<Name>, backup: Name, autoBackup: bool, now: DateTime)
    requires now.Valid()
    ensures var (r, files') := RestoreEffect(files, denied, backup, autoBackup, now);
      var dest := OriginalName(backup);
      r.Failed? ==>
        && (dest in files <==> dest in files')
        && (dest in files ==> files'[dest] == files[dest])
        && (files' == files || files' == files[BackupName(dest, now) := files[dest]])
  {
    var dest := OriginalName(backup);
    BackupNameShape(dest, now);
    RestoreToFailure(files, denied, backup, dest, BackupName(dest, now), autoBackup);
  }

  lemma RestoreToFailure(files: map<Name, string>, denied: set<Name>, backup: Name, dest: Name, snapshot: Name, autoBackup: bool)
    requires snapshot != dest
    ensures var (r, files') := RestoreTo(files, denied, backup, dest, snapshot, autoBackup);
      r.Failed? ==>
        && (dest in files <==> dest in files')
        && (dest in files ==> files'[dest] == files[dest])
        && (files' == files || files' == files[snapshot := files[dest]])
  {
    if backup in files && !NamesDirectory(dest) && autoBackup && dest in files && snapshot !in denied {
      assert RestoreTo(files, denied, backup, dest, snapshot, autoBackup)
          == CopyBack(files[snapshot := files[dest]], denied, backup, dest);
    }
  }

  /**
   * A restore succeeds exactly when the backup exists, its original name is a
   * file other than the directory and the backup itself, that file may be
   * written, and a snapshot taken first may be written too; a missing backup
   * changes nothing.
   */
  lemma RestoreSucceeds(files: map<Name, string>, denied: set<Name>, backup: Name, autoBackup: bool, now: DateTime)
    requires now.Valid()
    ensures var (r, files') := RestoreEffect(files, denied, backup, autoBackup, now);
      var dest := OriginalName(backup);
      && (backup !in files ==> r == Failed(BackupMissing) && files' == files)
      && (r.Done? <==>
            && backup in files && !NamesDirectory(dest) && dest != backup && dest !in denied
            && !(autoBackup && dest in files && BackupName(dest, now) in denied))
  {
    var dest := OriginalName(backup);
    RestoreToSucceeds(files, denied, backup, dest, BackupName(dest, now), autoBackup);
  }

  lemma RestoreToSucceeds(files: map<Name, string>, denied: set<Name>, backup: Name, dest: Name, snapshot: Name, autoBackup: bool)
    ensures var (r, files') := RestoreTo(files, denied, backup, dest, snapshot, autoBackup);
      && (backup !in files ==> r == Failed(BackupMissing) && files' == files)
      && (r.Done? <==>
            && backup in files && !NamesDirectory(dest) && dest != backup && dest !in denied
            && !(autoBackup && dest in files && snapshot in denied))
  {
    if backup in files && !NamesDirectory(dest) && autoBackup && dest in files && snapshot !in denied {
      assert RestoreTo(files, denied, backup, dest, snapshot, autoBackup)
          == CopyBack(files[snapshot := files[dest]], denied, backup, dest);
    }
  }

  /**
   * A successful restore writes the backup's contents to `OriginalName(backup)`
   * -- unless the pre-restore snapshot of the destination got the very name of
   * the backup, in which case the destination gets its own old contents back.
   */
  lemma RestoreSuccessContents(files: map<Name, string>, denied: set<Name>, backup: Name, autoBackup: bool, now: DateTime)
    requires now.Valid()
    ensures var (r, files') := RestoreEffect(files, denied, backup, autoBackup, now);
      var dest := OriginalName(backup);
      var collides := autoBackup && dest in files && BackupName(dest, now) == backup;
      r.Done? ==>
        && backup in files && r.file == dest && dest != backup && dest in files'
        && files'[dest] == (if collides then files[dest] else files[backup])
  {
    var dest := OriginalName(backup);
    RestoreToSuccess(files, denied, backup, dest, BackupName(dest, now), autoBackup);
  }

  lemma RestoreToSuccess(files: map<Name, string>, denied: set<Name>, backup: Name, dest: Name, snapshot: Name, autoBackup: bool)
    ensures var (r, files') := RestoreTo(files, denied, backup, dest, snapshot, autoBackup);
      var collides := autoBackup && dest in files && snapshot == backup;
      r.Done? ==>
        && backup in files && r.file == dest && dest != backup && dest in files'
        && files'[dest] == (if collides then files[dest] else files[backup])
  {
  }

  /**
   * With `autoBackup` and an existing destination, a successful restore keeps
   * a snapshot of the destination's old contents; the backup itself is kept
   * unless that snapshot overwrote it.
   */
  lemma RestoreKeepsSnapshot(files: map<Name, string>, denied: set<Name>, backup: Name, autoBackup: bool, now: DateTime)
    requires now.Valid()
    ensures var (r, files') := RestoreEffect(files, denied, backup, autoBackup, now);
      var dest := OriginalName(backup);
      var snapshot := BackupName(dest, now);
      r.Done? ==>
        && (autoBackup && dest in files ==> snapshot in files' && files'[snapshot] == files[dest])
        && backup in files'
        && (!(autoBackup && dest in files && snapshot == backup) ==> files'[backup] == files[backup])
  {
    var dest := OriginalName(backup);
    BackupNameShape(dest, now);
    RestoreToSnapshot(files, denied, backup, dest, BackupName(dest, now), autoBackup);
  }

  lemma RestoreToSnapshot(files: map<Name, string>, denied: set<Name>, backup: Name, dest: Name, snapshot: Name, autoBackup: bool)
    requires snapshot != dest
    ensures var (r, files') := RestoreTo(files, denied, backup, dest, snapshot, autoBackup);
      r.Done? ==>
        && (autoBackup && dest in files ==> snapshot in files' && files'[snapshot] == files[dest])
        && backup in files'
        && (!(autoBackup && dest in files && snapshot == backup) ==> files'[backup] == files[backup])
  {
    if backup in files && !NamesDirectory(dest) && autoBackup && dest in files && snapshot !in denied {
      assert RestoreTo(files, denied, backup, dest, snapshot, autoBackup)
          == CopyBack(files[snapshot := files[dest]], denied, backup, dest);
    }
  }

  /** A restore changes no file other than the destination and the snapshot, and creates no other. */
  lemma RestoreFrame(files: map<Name, string>, denied: set<Name>, backup: Name, autoBackup: bool, now: DateTime)
    requires now.Valid()
    ensures var (r, files') := RestoreEffect(files, denied, backup, autoBackup, now);
      var dest := OriginalName(backup);
      var snapshot := BackupName(dest, now);
      && files'.Keys <= files.Keys + {dest, snapshot}
      && forall n :: n in files && n != dest && n != snapshot ==> n in files' && files'[n] == files[n]
  {
    var dest := OriginalName(backup);
    RestoreToFrame(files, denied, backup, dest, BackupName(dest, now), autoBackup);
  }

  lemma RestoreToFrame(files: map<Name, string>, denied: set<Name>, backup: Name, dest: Name, snapshot: Name, autoBackup: bool)
    ensures var (r, files') := RestoreTo(files, denied, backup, dest, snapshot, autoBackup);
      && files'.Keys <= files.Keys + {dest, snapshot}
      && forall n :: n in files && n != dest && n != snapshot ==> n in files' && files'[n] == files[n]
  {
    if backup in files && !NamesDirectory(dest) && autoBackup && dest in files && snapshot !in denied {
      assert RestoreTo(files, denied, backup, dest, snapshot, autoBackup)
          == CopyBack(files[snapshot := files[dest]], denied, backup, dest);
    }
  }

  /** A refused pre-restore snapshot fails the restore without touching any file. */
  lemma RestoreAutoBackupRefused(files: map<Name, string>, denied: set<Name>, backup: Name, now: DateTime)
    requires now.Valid()
    requires backup in files && !NamesDirectory(OriginalName(backup)) && OriginalName(backup) in files
    requires BackupName(OriginalName(backup), now) in denied
    ensures RestoreEffect(files, denied, backup, true, now) == (Failed(Exception), files)
  {
  }

  /**
   * Snapshot, edit, restore: for a file without extension, restoring its
   * backup without a further snapshot brings back the contents it had when
   * the backup was taken, whatever else happened in between, as long as the
   * backup itself was kept.
   */
  lemma SnapshotRestoreRoundTrip(files: map<Name, string>, denied: set<Name>, name: Name, now: DateTime,
                                 edited: map<Name, string>, later: DateTime)
    requires now.Valid() && later.Valid()
    requires name in files && !NamesDirectory(name) && name !in denied
    requires Suffix(name) == "" && !Contains(name + ".bak", ".bak.")
    requires BackupEffect(files, denied, name, now).0.BackedUp?
    requires var b := BackupName(name, now); b in edited && edited[b] == BackupEffect(files, denied, name, now).1[b]
    ensures RestoreEffect(edited, denied, BackupName(name, now), false, later)
            == (Done(name), edited[name := files[name]])
  {
    OriginalNameOfBackupPlain(name, now);
    BackupNameShape(name, now);
  }
}

=== FILE: fix.dfy ===
/**
 * The restore tool (clash_verge_fix.py): choosing a backup by its 1-based
 * position in the backup listing, by its file name, or interactively, and
 * handing it to `restore_backup` with a snapshot of the file it overwrites.
 *
 * Console input is given as parameters: the interactive choice and
 * confirmation strings, the command-line arguments, and `parseInt`, the
 * outcome of Python's `int()` on a string (`None` where it raises
 * `ValueError`).
 */
module Fix {
  import opened Wrappers
  import opened Text
  import opened Timestamp
  import opened Core

  /** What a 1-based index picks from the backup listing. */
  datatype Pick = NoneListed | OutOfRange | Picked(backup: Name)

  /** The checks of `restore_backup_by_index`: an empty listing first, then the bounds 1..|backups|. */
  function PickByIndex(backups: seq<Name>, idx: int): (p: Pick)
    ensures p.NoneListed? <==> backups == []
    ensures p.Picked? ==> p.backup in backups
  {
    if backups == [] then NoneListed
    else if idx < 1 || idx > |backups| then OutOfRange
    else Picked(backups[idx - 1])
  }

  /**
   * An empty listing picks nothing; otherwise an index picks exactly when it
   * lies in 1..|backups|, and then it picks the entry at that 1-based position.
   */
  lemma PickByIndexMeaning(backups: seq<Name>, idx: int)
    ensures PickByIndex(backups, idx) == NoneListed <==> backups == []
    ensures PickByIndex(backups, idx) == OutOfRange <==> backups != [] && !(1 <= idx <= |backups|)
    ensures PickByIndex(backups, idx).Picked? <==> 1 <= idx <= |backups|
    ensures PickByIndex(backups, idx).Picked? ==> PickByIndex(backups, idx).backup == backups[idx - 1]
  {
  }

  /** Whatever is picked from the listing's backups is a listed name matching `*.bak.*`. */
  lemma PickedIsListedBackup(present: bool, listing: seq<Name>, idx: int)
    ensures var p := PickByIndex(BackupFiles(present, listing), idx);
      p.Picked? ==> p.backup in listing && IsBackup(p.backup)
  {
    var backups := BackupFiles(present, listing);
    if 1 <= idx <= |backups| {
      assert backups[idx - 1] in backups;
    }
  }

  /** `restore_backup_by_index(idx)` on the profiles directory. */
  function ByIndexEffect(files: map<Name, string>, present: bool, denied: set<Name>, host: Host,
                         listing: seq<Name>, idx: int): (Report, map<Name, string>)
    requires host.now.Valid()
  {
    if ProfilesDirectory(host.system, host.home).None? then
      // the unsupported-system error is caught and reported
      (Failed(Exception), files)
    else
      match PickByIndex(BackupFiles(present, listing), idx)
      case NoneListed => (Failed(NoBackups), files)
      case OutOfRange => (Failed(InvalidIndex), files)
      case Picked(backup) => RestoreEffect(files, denied, backup, true, host.now)
  }

  /**
   * Index restore refuses an empty listing and an index outside 1..n with
   * the matching report and no change; a valid index is exactly a restore
   * of the backup at that 1-based position, with a snapshot.
   */
  lemma ByIndexOutcome(files: map<Name, string>, present: bool, denied: set<Name>, host: Host,
                       listing: seq<Name>, idx: int)
    requires host.now.Valid()
    ensures var (r, files') := ByIndexEffect(files, present, denied, host, listing, idx);
      var backups := BackupFiles(present, listing);
      && (r == Failed(NoBackups) <==> ProfilesDirectory(host.system, host.home).Some? && backups == [])
      && (r == Failed(InvalidIndex) <==>
            ProfilesDirectory(host.system, host.home).Some? && backups != [] && !(1 <= idx <= |backups|))
      && (r == Failed(NoBackups) || r == Failed(InvalidIndex) ==> files' == files)
      && (ProfilesDirectory(host.system, host.home).Some? && 1 <= idx <= |backups| ==>
            (r, files') == RestoreEffect(files, denied, backups[idx - 1], true, host.now))
  {
    var backups := BackupFiles(present, listing);
    if ProfilesDirectory(host.system, host.home).Some? && 1 <= idx <= |backups| {
      RestoreNeverRefusesSelection(files, denied, backups[idx - 1], host.now);
    }
  }

  /** `restore_backup` never answers with the two refusals that belong to the index checks. */
  lemma RestoreNeverRefusesSelection(files: map<Name, string>, denied: set<Name>, backup: Name, now: DateTime)
    requires now.Valid()
    ensures RestoreEffect(files, denied, backup, true, now).0 != Failed(NoBackups)
    ensures RestoreEffect(files, denied, backup, true, now).0 != Failed(InvalidIndex)
  {
    var dest := OriginalName(backup);
    RestoreToReports(files, denied, backup, dest, BackupName(dest, now));
  }

  lemma RestoreToReports(files: map<Name, string>, denied: set<Name>, backup: Name, dest: Name, snapshot: Name)
    ensures RestoreTo(files, denied, backup, dest, snapshot, true).0 != Failed(NoBackups)
    ensures RestoreTo(files, denied, backup, dest, snapshot, true).0 != Failed(InvalidIndex)
  {
  }

  /** `restore_backup_by_index`: list the backups, check the index, restore the one it picks. */
  method RestoreBackupByIndex(store: Profiles, host: Host, listing: seq<Name>, idx: int) returns (r: Report)
    requires store.Valid() && host.now.Valid()
    modifies store`files
    ensures store.Valid()
    ensures (r, store.files) == ByIndexEffect(old(store.files), store.present, store.denied, host, listing, idx)
  {
    if ProfilesDirectory(host.system, host.home).None? {
      return Failed(Exception);
    }
    var backups := FindBackupFiles(store.present, listing);
    if backups == [] {
      return Failed(NoBackups);
    }
    if idx < 1 || idx > |backups| {
      return Failed(InvalidIndex);
    }
    r := store.Restore(backups[idx - 1], true, host.now);
  }

  /** `restore_backup_by_name(name)` on the profiles directory. */
  function ByNameEffect(files: map<Name, string>, present: bool, denied: set<Name>, host: Host, name: Name)
    : (Report, map<Name, string>)
    requires host.now.Valid()
  {
    if ProfilesDirectory(host.system, host.home).None? then (Failed(Exception), files)
    else if NamesDirectory(name) && present then
      // `profiles / ""` and `profiles / "."` are the directory itself and `profiles / ".."` its parent:
      // they exist, and restoring a directory raises
      (Failed(Exception), files)
    else if name !in files then (Failed(BackupMissing), files)
    else RestoreEffect(files, denied, name, true, host.now)
  }

  /** Name restore refuses a missing file without any change and otherwise is exactly a restore of that file. */
  lemma ByNameOutcome(files: map<Name, string>, present: bool, denied: set<Name>, host: Host, name: Name)
    requires host.now.Valid()
    ensures var (r, files') := ByNameEffect(files, present, denied, host, name);
      && (ProfilesDirectory(host.system, host.home).Some? && NamesDirectory(name) && present ==>
            r == Failed(Exception) && files' == files)
      && (ProfilesDirectory(host.system, host.home).Some? && !NamesDirectory(name) && name !in files ==>
            r == Failed(BackupMissing) && files' == files)
      && (ProfilesDirectory(host.system, host.home).Some? && !NamesDirectory(name) ==>
            (r, files') == RestoreEffect(files, denied, name, true, host.now))
  {
  }

  /**
   * Restoring the backup listed at position `idx` by its name has the same
   * effect as restoring it by its index.
   */
  lemma ByNameAgreesWithByIndex(files: map<Name, string>, present: bool, denied: set<Name>, host: Host,
                                listing: seq<Name>, idx: int)
    requires host.now.Valid()
    requires 1 <= idx <= |BackupFiles(present, listing)|
    ensures ByNameEffect(files, present, denied, host, BackupFiles(present, listing)[idx - 1])
         == ByIndexEffect(files, present, denied, host, listing, idx)
  {
    var backups := BackupFiles(present, listing);
    var b := backups[idx - 1];
    assert b in backups;
    assert b != "" by {
      if b == "" {
        NotContains("", ".bak.");
      }
    }
  }

  /** `restore_backup_by_name`: check that the file exists, then restore it. */
  method RestoreBackupByName(store: Profiles, host: Host, name: Name) returns (r: Report)
    requires store.Valid() && host.now.Valid()
    modifies store`files
    ensures store.Valid()
    ensures (r, store.files) == ByNameEffect(old(store.files), store.present, store.denied, host, name)
  {
    if ProfilesDirectory(host.system, host.home).None? {
      return Failed(Exception);
    }
    if NamesDirectory(name) && store.present {
      return Failed(Exception);
    }
    if name !in store.files {
      return Failed(BackupMissing);
    }
    r := store.Restore(name, true, host.now);
  }

  // ---------------------------------------------------------------- interactive restore

  /** How the interactive dialogue ends. */
  datatype Dialogue =
    | NothingListed        // "no backup files found"
    | Cancelled            // 'q' at the choice, or anything but 'y' at the confirmation
    | NotANumber           // `int(choice)` raised; the handler prints the error
    | InvalidChoice        // a number outside 1..n
    | Confirmed(backup: Name)

  /** The branches of `interactive_restore` after the listing is shown. */
  function Choose(backups: seq<Name>, choice: string, parseInt: string -> Option<int>, confirm: string): (d: Dialogue)
    ensures d.NothingListed? <==> backups == []
    ensures d.Confirmed? ==> d.backup in backups
  {
    if backups == [] then NothingListed
    else if Lower(choice) == "q" then Cancelled
    else
      match parseInt(choice)
      case None => NotANumber
      case Some(n) =>
        if n - 1 < 0 || n - 1 >= |backups| then InvalidChoice
        else if Lower(confirm) != "y" then Cancelled
        else Confirmed(backups[n - 1])
  }

  /**
   * A backup is confirmed exactly when there is one, the choice is not
   * q/Q, it reads as a number n in 1..|backups|, and the confirmation is
   * y/Y; the backup is then the n-th listed.
   */
  lemma ChooseConfirmed(backups: seq<Name>, choice: string, parseInt: string -> Option<int>, confirm: string)
    ensures Choose(backups, choice, parseInt, confirm).Confirmed? <==>
      && backups != [] && Lower(choice) != "q"
      && parseInt(choice).Some? && 1 <= parseInt(choice).value <= |backups|
      && Lower(confirm) == "y"
    ensures Choose(backups, choice, parseInt, confirm).Confirmed? ==>
      Choose(backups, choice, parseInt, confirm).backup == backups[parseInt(choice).value - 1]
  {
  }

  /** "q" and "Q" cancel before any number is read, whatever the confirmation. */
  lemma QuitCancels(backups: seq<Name>, parseInt: string -> Option<int>, confirm: string)
    requires backups != []
    ensures Choose(backups, "q", parseInt, confirm) == Cancelled
    ensures Choose(backups, "Q", parseInt, confirm) == Cancelled
  {
    assert Lower("Q") == "q";
  }

  /** `interactive_restore` on the profiles directory: the dialogue's end, the restore's report if one ran, and the files. */
  function InteractiveEffect(files: map<Name, string>, present: bool, denied: set<Name>, host: Host,
                             listing: seq<Name>, choice: string, parseInt: string -> Option<int>, confirm: string)
    : (Option<Dialogue>, Option<Report>, map<Name, string>)
    requires host.now.Valid()
  {
    if ProfilesDirectory(host.system, host.home).None? then
      // listing the backups raises before the dialogue starts
      (None, None, files)
    else
      var d := Choose(BackupFiles(present, listing), choice, parseInt, confirm);
      match d
      case Confirmed(backup) =>
        var (r, files') := RestoreEffect(files, denied, backup, true, host.now);
        (Some(d), Some(r), files')
      case _ => (Some(d), None, files)
  }

  /**
   * Only a confirmed choice restores anything, and a confirmed choice of
   * number n has exactly the effect of restoring by index n.
   */
  lemma InteractiveOutcome(files: map<Name, string>, present: bool, denied: set<Name>, host: Host,
                           listing: seq<Name>, choice: string, parseInt: string -> Option<int>, confirm: string)
    requires host.now.Valid()
    ensures var (d, r, files') := InteractiveEffect(files, present, denied, host, listing, choice, parseInt, confirm);
      && (!(d.Some? && d.value.Confirmed?) ==> r.None? && files' == files)
      && (d.Some? && d.value.Confirmed? ==>
            && parseInt(choice).Some?
            && r.Some?
            && (r.value, files') == ByIndexEffect(files, present, denied, host, listing, parseInt(choice).value))
  {
    var backups := BackupFiles(present, listing);
    if ProfilesDirectory(host.system, host.home).Some? {
      ChooseConfirmed(backups, choice, parseInt, confirm);
    }
  }

  /** `interactive_restore`: list, read the choice, check it, confirm, restore. */
  method InteractiveRestore(store: Profiles, host: Host, listing: seq<Name>,
                            choice: string, parseInt: string -> Option<int>, confirm: string)
    returns (d: Option<Dialogue>, r: Option<Report>)
    requires store.Valid() && host.now.Valid()
    modifies store`files
    ensures store.Valid()
    ensures (d, r, store.files)
         == InteractiveEffect(old(store.files), store.present, store.denied, host, listing, choice, parseInt, confirm)
  {
    if ProfilesDirectory(host.system, host.home).None? {
      return None, None;
    }
    var backups := FindBackupFiles(store.present, listing);
    if backups == [] {
      return Some(NothingListed), None;
    }
    if Lower(choice) == "q" {
      return Some(Cancelled), None;
    }
    var parsed := parseInt(choice);
    if parsed.None? {
      return Some(NotANumber), None;
    }
    var idx := parsed.value - 1;
    if idx < 0 || idx >= |backups| {
      return Some(InvalidChoice), None;
    }
    var backup := backups[idx];
    if Lower(confirm) != "y" {
      return Some(Cancelled), None;
    }
    var report := store.Restore(backup, true, host.now);
    return Some(Confirmed(backup)), Some(report);
  }

  // ---------------------------------------------------------------- the command line

  /** What `main` does with its arguments. */
  datatype Command = ByIndex(idx: int) | ByName(name: Name) | Interactive

  /** An argument that reads as an integer is an index, any other is a file name; no argument starts the dialogue. */
  function Route(argv: seq<string>, parseInt: string -> Option<int>): (c: Command)
    ensures |argv| <= 1 <==> c.Interactive?
    ensures c.ByIndex? <==> |argv| > 1 && parseInt(argv[1]).Some?
    ensures c.ByIndex? ==> c.idx == parseInt(argv[1]).value
    ensures c.ByName? ==> c.name == argv[1]
  {
    if |argv| > 1 then
      match parseInt(argv[1])
      case Some(idx) => ByIndex(idx)
      case None => ByName(argv[1])
    else Interactive
  }

  /** `main` on the profiles directory: the report of whichever restore ran, and the files. */
  function MainEffect(files: map<Name, string>, present: bool, denied: set<Name>, host: Host, listing: seq<Name>,
                      argv: seq<string>, parseInt: string -> Option<int>, choice: string, confirm: string)
    : (Option<Report>, map<Name, string>)
    requires host.now.Valid()
  {
    match Route(argv, parseInt)
    case ByIndex(idx) =>
      var (r, files') := ByIndexEffect(files, present, denied, host, listing, idx);
      (Some(r), files')
    case ByName(name) =>
      var (r, files') := ByNameEffect(files, present, denied, host, name);
      (Some(r), files')
    case Interactive =>
      var (_, r, files') := InteractiveEffect(files, present, denied, host, listing, choice, parseInt, confirm);
      (r, files')
  }

  /** `main`: route the first argument, or run the dialogue. */
  method RunFix(store: Profiles, host: Host, listing: seq<Name>, argv: seq<string>,
                parseInt: string -> Option<int>, choice: string, confirm: string) returns (r: Option<Report>)
    requires store.Valid() && host.now.Valid()
    modifies store`files
    ensures store.Valid()
    ensures (r, store.files)
         == MainEffect(old(store.files), store.present, store.denied, host, listing, argv, parseInt, choice, confirm)
  {
    if |argv| > 1 {
      var parsed := parseInt(argv[1]);
      if parsed.Some? {
        var report := RestoreBackupByIndex(store, host, listing, parsed.value);
        return Some(report);
      }
      var report := RestoreBackupByName(store, host, argv[1]);
      return Some(report);
    }
    var _, report := InteractiveRestore(store, host, listing, choice, parseInt, confirm);
    return report;
  }
}

=== FILE: text.dfy ===
/**
 * String operations of Python's `str` that the modelled code relies on:
 * `strip`, `splitlines`, `lower`, `startswith`, `endswith`, `in`, `split`
 * and `join`, plus a generic order-preserving filter for the loops that
 * append the matching items of a list.
 */
module Text {

  // ---------------------------------------------------------------- prefixes

  predicate StartsWith(s: string, p: string) {
    |p| <= |s| && s[..|p|] == p
  }

  predicate EndsWith(s: string, p: string) {
    |p| <= |s| && s[|s| - |p|..] == p
  }

  /** Python's `p in s` for strings. */
  predicate Contains(s: string, p: string)
    decreases |s|
  {
    StartsWith(s, p) || (|s| > 0 && Contains(s[1..], p))
  }

  lemma {:induction false} ContainsAt(s: string, p: string, i: nat)
    requires i <= |s| && StartsWith(s[i..], p)
    ensures Contains(s, p)
    decreases i
  {
    if i > 0 {
      assert s[1..][i - 1..] == s[i..];
      ContainsAt(s[1..], p, i - 1);
    }
  }

  lemma {:induction false} ContainsWitness(s: string, p: string) returns (i: nat)
    requires Contains(s, p)
    ensures i + |p| <= |s| && s[i..i + |p|] == p
    decreases |s|
  {
    if StartsWith(s, p) {
      i := 0;
    } else {
      var j := ContainsWitness(s[1..], p);
      i := j + 1;
      assert s[i..i + |p|] == s[1..][j..j + |p|];
    }
  }

  /** A string contains each of its infixes. */
  lemma ContainsInfix(a: string, p: string, b: string)
    ensures Contains(a + p + b, p)
  {
    var s := a + p + b;
    assert s[|a|..][..|p|] == p;
    ContainsAt(s, p, |a|);
  }

  /** Text appended after an occurrence keeps it. */
  lemma ContainsExtend(s: string, b: string, p: string)
    requires Contains(s, p)
    ensures Contains(s + b, p)
  {
    var i := ContainsWitness(s, p);
    assert (s + b)[i..][..|p|] == s[i..i + |p|];
    ContainsAt(s + b, p, i);
  }

  /** Text put before an occurrence keeps it. */
  lemma ContainsAfter(a: string, s: string, p: string)
    requires Contains(s, p)
    ensures Contains(a + s, p)
  {
    var i := ContainsWitness(s, p);
    assert (a + s)[|a| + i..][..|p|] == s[i..i + |p|];
    ContainsAt(a + s, p, |a| + i);
  }

  /** A string containing `p + q` contains `p`. */
  lemma ContainsShorter(s: string, p: string, q: string)
    requires Contains(s, p + q)
    ensures Contains(s, p)
  {
    var i := ContainsWitness(s, p + q);
    assert s[i..][..|p|] == (p + q)[..|p|] == p;
    ContainsAt(s, p, i);
  }

  /** An occurrence that starts and ends inside `a` is an occurrence in `a`. */
  lemma StartsWithWithin(a: string, rest: string, p: string, j: nat)
    requires j + |p| <= |a| && StartsWith((a + rest)[j..], p)
    ensures StartsWith(a[j..], p)
  {
    assert a[j..][..|p|] == (a + rest)[j..][..|p|];
  }

  /** A string none of whose characters starts `p` does not contain `p`. */
  lemma {:induction false} NotContains(s: string, p: string)
    requires |p| > 0 && forall j :: 0 <= j < |s| ==> s[j] != p[0]
    ensures !Contains(s, p)
    decreases |s|
  {
    if |s| > 0 {
      assert |p| <= |s| ==> s[..|p|][0] != p[0];
      NotContains(s[1..], p);
    }
  }

  /** The text before the first occurrence of `sep`: Python's `s.split(sep)[0]`. */
  function Before(s: string, sep: string): (r: string)
    requires |sep| > 0
    ensures StartsWith(s, r)
    ensures !Contains(s, sep) ==> r == s
    ensures Contains(s, sep) ==> StartsWith(s[|r|..], sep)
    ensures forall j :: 0 <= j < |r| ==> !StartsWith(s[j..], sep)
    decreases |s|
  {
    if StartsWith(s, sep) then ""
    else if s == "" then ""
    else
      var rest := Before(s[1..], sep);
      assert forall j :: 1 <= j <= |s| ==> s[j..] == s[1..][j - 1..];
      [s[0]] + rest
  }

  // ------------------------------------------------------------ whitespace

  /** Python's `str.isspace` for one character. */
  predicate IsSpace(c: char) {
    c == ' ' || c == '\t' || c == '\n' || c == '\r' || c == '\U{000B}' || c == '\U{000C}'
    || ('\U{001C}' <= c <= '\U{001F}') || c == '\U{0085}' || c == '\U{00A0}' || c == '\U{1680}'
    || ('\U{2000}' <= c <= '\U{200A}') || c == '\U{2028}' || c == '\U{2029}' || c == '\U{202F}'
    || c == '\U{205F}' || c == '\U{3000}'
  }

  /** The characters `str.splitlines` breaks at (`\r\n` counts as one break). */
  predicate IsLineBreak(c: char) {
    c == '\n' || c == '\r' || c == '\U{000B}' || c == '\U{000C}' || ('\U{001C}' <= c <= '\U{001E}')
    || c == '\U{0085}' || c == '\U{2028}' || c == '\U{2029}'
  }

  function TrimStart(s: string): (r: string)
    ensures |r| <= |s| && r == s[|s| - |r|..]
    ensures r == "" || !IsSpace(r[0])
    decreases |s|
  {
    if |s| > 0 && IsSpace(s[0]) then
      var r := TrimStart(s[1..]);
      assert s[1..][|s| - 1 - |r|..] == s[|s| - |r|..];
      r
    else s
  }

  function TrimEnd(s: string): (r: string)
    ensures |r| <= |s| && r == s[..|r|]
    ensures r == "" || !IsSpace(r[|r| - 1])
    decreases |s|
  {
    if |s| > 0 && IsSpace(s[|s| - 1]) then TrimEnd(s[..|s| - 1]) else s
  }

  /** Python's `str.strip()` with no argument. */
  function Strip(s: string): (r: string)
    ensures r == "" || (!IsSpace(r[0]) && !IsSpace(r[|r| - 1]))
    ensures |s| - |TrimStart(s)| + |r| <= |s| && r == s[|s| - |TrimStart(s)|..|s| - |TrimStart(s)| + |r|]
  {
    var t := TrimStart(s);
    var r := TrimEnd(t);
    assert r != "" ==> r[0] == t[0];
    PrefixOfSuffix(s, t, r);
    r
  }

  /** Only white space goes before what `TrimStart` keeps. */
  lemma {:induction false} TrimStartDrops(s: string)
    ensures forall k :: 0 <= k < |s| - |TrimStart(s)| ==> IsSpace(s[k])
    decreases |s|
  {
    if |s| > 0 && IsSpace(s[0]) {
      TrimStartDrops(s[1..]);
      assert forall k :: 1 <= k < |s| ==> s[k] == s[1..][k - 1];
    }
  }

  /** Only white space goes after what `TrimEnd` keeps. */
  lemma {:induction false} TrimEndDrops(s: string)
    ensures forall k :: |TrimEnd(s)| <= k < |s| ==> IsSpace(s[k])
    decreases |s|
  {
    if |s| > 0 && IsSpace(s[|s| - 1]) {
      TrimEndDrops(s[..|s| - 1]);
    }
  }

  /**
   * `strip()` keeps one contiguous slice of the text and removes only white
   * space around it; the slice neither starts nor ends with white space.
   */
  lemma StripMeaning(s: string)
    ensures exists i, j ::
              && 0 <= i <= j <= |s| && Strip(s) == s[i..j]
              && (forall k :: 0 <= k < i ==> IsSpace(s[k]))
              && (forall k :: j <= k < |s| ==> IsSpace(s[k]))
  {
    var i := |s| - |TrimStart(s)|;
    TrimStartDrops(s);
    StripTrailing(s);
    SliceBetween(s, Strip(s), i, i + |Strip(s)|, IsSpace);
  }

  /** A prefix of a suffix of `s` is a slice of `s`. */
  lemma PrefixOfSuffix<T>(s: seq<T>, t: seq<T>, r: seq<T>)
    requires |t| <= |s| && t == s[|s| - |t|..]
    requires |r| <= |t| && r == t[..|r|]
    ensures r == s[|s| - |t|..|s| - |t| + |r|]
  {
  }

  /** Only white space follows what `strip()` keeps. */
  lemma StripTrailing(s: string)
    ensures forall k :: |s| - |TrimStart(s)| + |Strip(s)| <= k < |s| ==> IsSpace(s[k])
  {
    var t := TrimStart(s);
    TrimEndDrops(t);
    HoldsAfterShift(s, |s| - |t|, |s| - |t| + |Strip(s)|, IsSpace);
  }

  /** `r` is a slice of `s` with only `p`-items around it. */
  lemma SliceBetween<T>(s: seq<T>, r: seq<T>, i: nat, j: nat, p: T -> bool)
    requires i <= j <= |s| && r == s[i..j]
    requires forall k :: 0 <= k < i ==> p(s[k])
    requires forall k :: j <= k < |s| ==> p(s[k])
    ensures exists i', j' ::
              && 0 <= i' <= j' <= |s| && r == s[i'..j']
              && (forall k :: 0 <= k < i' ==> p(s[k]))
              && (forall k :: j' <= k < |s| ==> p(s[k]))
  {
  }

  /** What holds from `j - i` on in `s[i..]` holds from `j` on in `s`. */
  lemma HoldsAfterShift<T>(s: seq<T>, i: nat, j: nat, p: T -> bool)
    requires i <= j <= |s|
    requires forall k :: j - i <= k < |s| - i ==> p(s[i..][k])
    ensures forall k :: j <= k < |s| ==> p(s[k])
  {
    forall k | j <= k < |s|
      ensures p(s[k])
    {
      assert s[k] == s[i..][k - i];
    }
  }

  // ------------------------------------------------------------ splitlines

  /** Index of the first line break in `s`, or `|s|` when there is none. */
  function BreakAt(s: string): (i: nat)
    ensures i <= |s|
    ensures i < |s| ==> IsLineBreak(s[i])
    ensures forall j :: 0 <= j < i ==> !IsLineBreak(s[j])
    decreases |s|
  {
    if s == "" then 0 else if IsLineBreak(s[0]) then 0 else 1 + BreakAt(s[1..])
  }

  /** Python's `str.splitlines()`: the line breaks are dropped, a final break opens no new line. */
  function SplitLines(s: string): (lines: seq<string>)
    ensures forall k, j :: 0 <= k < |lines| && 0 <= j < |lines[k]| ==> !IsLineBreak(lines[k][j])
    decreases |s|
  {
    if s == "" then []
    else
      var i := BreakAt(s);
      if i == |s| then [s]
      else
        var next := if s[i] == '\r' && i + 1 < |s| && s[i + 1] == '\n' then i + 2 else i + 1;
        [s[..i]] + SplitLines(s[next..])
  }

  /** The first break in `l + r`, for `l` without breaks and `r` empty or opening with one, is at `|l|`. */
  lemma {:induction false} BreakAtEnd(l: string, r: string)
    requires forall j :: 0 <= j < |l| ==> !IsLineBreak(l[j])
    requires r == "" || IsLineBreak(r[0])
    ensures BreakAt(l + r) == |l|
    decreases |l|
  {
    if l != "" {
      assert (l + r)[1..] == l[1..] + r;
      BreakAtEnd(l[1..], r);
    }
  }

  /**
   * Splitting lines joined with "\n" gives them back, when no line holds a
   * break and the last one is not empty (a final break opens no new line).
   */
  lemma {:induction false} SplitLinesOfJoin(lines: seq<string>)
    requires forall k, j :: 0 <= k < |lines| && 0 <= j < |lines[k]| ==> !IsLineBreak(lines[k][j])
    requires lines == [] || lines[|lines| - 1] != ""
    ensures SplitLines(Join(lines, "\n")) == lines
    decreases |lines|
  {
    if |lines| == 1 {
      BreakAtEnd(lines[0], "");
      assert lines[0] + "" == lines[0];
    } else if |lines| > 1 {
      var l, rest := lines[0], Join(lines[1..], "\n");
      var s := l + "\n" + rest;
      assert s == l + ("\n" + rest);
      BreakAtEnd(l, "\n" + rest);
      assert s[..|l|] == l && s[|l|] == '\n';
      assert s[|l| + 1..] == rest;
      SplitLinesOfJoin(lines[1..]);
    }
  }

  // ------------------------------------------------------------ case folding

  function LowerChar(c: char): char {
    if 'A' <= c <= 'Z' then (c as int + 32) as char else c
  }

  /**
   * `str.lower()`, folding the ASCII letters only. No other character lowers
   * to a letter of the words the modelled code compares against ("adobe",
   * "script.js", "q", "y"), so the comparisons come out as in Python.
   */
  function Lower(s: string): (r: string)
    ensures |r| == |s|
    ensures forall i :: 0 <= i < |s| ==> r[i] == LowerChar(s[i])
  {
    seq(|s|, i requires 0 <= i < |s| => LowerChar(s[i]))
  }

  // ------------------------------------------------------------ split, join

  /** Prefix of `s` up to (not including) the first space. */
  function UpToSpace(s: string): (r: string)
    ensures StartsWith(s, r)
    ensures forall j :: 0 <= j < |r| ==> r[j] != ' '
    ensures |r| == |s| || s[|r|] == ' '
    decreases |s|
  {
    if s == "" || s[0] == ' ' then "" else [s[0]] + UpToSpace(s[1..])
  }

  /** Python's `sep.join(items)`. */
  function Join(items: seq<string>, sep: string): string
    decreases |items|
  {
    if items == [] then ""
    else if |items| == 1 then items[0]
    else items[0] + sep + Join(items[1..], sep)
  }

  /** Each line followed by a newline: the lines of a text block. */
  function Unlines(lines: seq<string>): string
    decreases |lines|
  {
    if lines == [] then "" else lines[0] + "\n" + Unlines(lines[1..])
  }

  /** Every line of a text block, with its newline, occurs in it. */
  lemma {:induction false} UnlinesLine(lines: seq<string>, k: nat)
    requires k < |lines|
    ensures Contains(Unlines(lines), lines[k] + "\n")
    decreases k
  {
    var rest := Unlines(lines[1..]);
    if k == 0 {
      ContainsInfix("", lines[0] + "\n", rest);
      assert "" + (lines[0] + "\n") + rest == Unlines(lines);
    } else {
      UnlinesLine(lines[1..], k - 1);
      ContainsAfter(lines[0] + "\n", rest, lines[k] + "\n");
    }
  }

  // ------------------------------------------------------------ filtering

  /** The items of `s` that satisfy `p`, in order (a loop appending the matching items). */
  function Filter<T>(p: T -> bool, s: seq<T>): (r: seq<T>)
    ensures |r| <= |s|
    decreases |s|
  {
    if s == [] then [] else Filter(p, s[..|s| - 1]) + (if p(s[|s| - 1]) then [s[|s| - 1]] else [])
  }

  /** The concatenation of `f(x)` over the items of `s`, in order (a loop appending what each item yields). */
  function FlatMap<T, U>(f: T -> seq<U>, s: seq<T>): seq<U>
    decreases |s|
  {
    if s == [] then [] else FlatMap(f, s[..|s| - 1]) + f(s[|s| - 1])
  }

  /** An item of the result comes from some item of the input, and every item's yield is in the result. */
  lemma {:induction false} FlatMapMember<T, U>(f: T -> seq<U>, s: seq<T>, y: U)
    ensures y in FlatMap(f, s) <==> exists j :: 0 <= j < |s| && y in f(s[j])
    decreases |s|
  {
    if s != [] {
      var s', last := s[..|s| - 1], s[|s| - 1];
      FlatMapMember(f, s', y);
      assert FlatMap(f, s) == FlatMap(f, s') + f(last);
      if y in FlatMap(f, s') {
        var j :| 0 <= j < |s'| && y in f(s'[j]);
        assert s[j] == s'[j];
      } else if y in f(last) {
        assert y in f(s[|s| - 1]);
      } else {
        forall j | 0 <= j < |s|
          ensures y !in f(s[j])
        {
          if j < |s'| {
            assert s[j] == s'[j];
          }
        }
      }
    }
  }

  /** When each item yields at most one value, the result is no longer than the input. */
  lemma {:induction false} FlatMapBound<T, U>(f: T -> seq<U>, s: seq<T>)
    requires forall x :: x in s ==> |f(x)| <= 1
    ensures |FlatMap(f, s)| <= |s|
    decreases |s|
  {
    if s != [] {
      assert s[|s| - 1] in s;
      FlatMapBound(f, s[..|s| - 1]);
    }
  }

  lemma {:induction false} FilterAppend<T>(p: T -> bool, a: seq<T>, b: seq<T>)
    ensures Filter(p, a + b) == Filter(p, a) + Filter(p, b)
    decreases |b|
  {
    if b != [] {
      var b' := b[..|b| - 1];
      assert (a + b)[..|a + b| - 1] == a + b';
      FilterAppend(p, a, b');
    } else {
      assert a + b == a;
    }
  }

  lemma {:induction false} FilterMember<T>(p: T -> bool, s: seq<T>, x: T)
    ensures x in Filter(p, s) <==> x in s && p(x)
    decreases |s|
  {
    if s != [] {
      FilterMember(p, s[..|s| - 1], x);
      assert s == s[..|s| - 1] + [s[|s| - 1]];
    }
  }

  /** The filter is empty exactly when no item satisfies `p`. */
  lemma {:induction false} FilterEmpty<T>(p: T -> bool, s: seq<T>)
    ensures Filter(p, s) == [] <==> forall j :: 0 <= j < |s| ==> !p(s[j])
    decreases |s|
  {
    if s != [] {
      var s' := s[..|s| - 1];
      FilterEmpty(p, s');
      assert forall j :: 0 <= j < |s'| ==> s'[j] == s[j];
    }
  }

  /** The first item of `Filter(p, s)` is the first item of `s` that satisfies `p`. */
  lemma {:induction false} FilterFirst<T>(p: T -> bool, s: seq<T>)
    ensures Filter(p, s) == [] <==> forall j :: 0 <= j < |s| ==> !p(s[j])
    ensures Filter(p, s) != [] ==>
      exists k :: 0 <= k < |s| && s[k] == Filter(p, s)[0] && p(s[k]) && forall j :: 0 <= j < k ==> !p(s[j])
    decreases |s|
  {
    FilterEmpty(p, s);
    if s != [] {
      var s', last := s[..|s| - 1], s[|s| - 1];
      var tail := if p(last) then [last] else [];
      assert Filter(p, s) == Filter(p, s') + tail;
      FilterFirst(p, s');
      if Filter(p, s') != [] {
        var k :| 0 <= k < |s'| && s'[k] == Filter(p, s')[0] && p(s'[k]) && forall j :: 0 <= j < k ==> !p(s'[j]);
        assert forall j :: 0 <= j <= k ==> s[j] == s'[j];
        assert Filter(p, s)[0] == s[k];
      } else if p(last) {
        assert forall j :: 0 <= j < |s'| ==> s[j] == s'[j];
        assert Filter(p, s)[0] == s[|s| - 1];
      }
    }
  }

  /** Extending the input by one item extends the result by what that item yields. */
  lemma FlatMapSnoc<T, U>(f: T -> seq<U>, s: seq<T>, i: nat)
    requires i < |s|
    ensures FlatMap(f, s[..i + 1]) == FlatMap(f, s[..i]) + f(s[i])
  {
    assert s[..i + 1][..i] == s[..i];
  }
}

=== FILE: timestamp.dfy ===
/**
 * Calendar timestamps as the backup scheme writes and reads them:
 * `strftime("%Y%m%d%H%M%S")` gives the 14-digit stamp in a backup name,
 * `strptime` of the same format reads it back and `"%Y-%m-%d %H:%M:%S"`
 * shows it to the user.
 */
module Timestamp {
  import opened Wrappers

  datatype DateTime = DateTime(year: int, month: int, day: int, hour: int, minute: int, second: int) {
    /** The values Python's `datetime` accepts (years 1 to 9999, a real calendar day, no leap second). */
    predicate Valid() {
      && 1 <= year <= 9999
      && 1 <= month <= 12
      && 1 <= day <= DaysInMonth(year, month)
      && 0 <= hour < 24
      && 0 <= minute < 60
      && 0 <= second < 60
    }
  }

  predicate IsLeapYear(y: int) {
    y % 4 == 0 && (y % 100 != 0 || y % 400 == 0)
  }

  function DaysInMonth(y: int, m: int): int
    requires 1 <= m <= 12
  {
    if m == 2 then (if IsLeapYear(y) then 29 else 28)
    else if m == 4 || m == 6 || m == 9 || m == 11 then 30
    else 31
  }

  // ------------------------------------------------------------ decimal digits

  predicate IsDigit(c: char) {
    '0' <= c <= '9'
  }

  predicate AllDigits(s: string) {
    forall i :: 0 <= i < |s| ==> IsDigit(s[i])
  }

  function Pow10(n: nat): nat {
    if n == 0 then 1 else 10 * Pow10(n - 1)
  }

  /** `n` in decimal, zero-padded (or cut) to `width` digits: the last `width` digits of `n`. */
  function Pad(n: nat, width: nat): (s: string)
    ensures |s| == width && AllDigits(s)
  {
    if width == 0 then "" else Pad(n / 10, width - 1) + [('0' as int + n % 10) as char]
  }

  /** The number a string of decimal digits denotes. */
  function Value(s: string): nat
    requires AllDigits(s)
  {
    if s == "" then 0 else 10 * Value(s[..|s| - 1]) + (s[|s| - 1] as int - '0' as int)
  }

  lemma {:induction false} ValuePad(n: nat, width: nat)
    requires n < Pow10(width)
    ensures Value(Pad(n, width)) == n
  {
    if width > 0 {
      var s := Pad(n, width);
      assert s[..|s| - 1] == Pad(n / 10, width - 1);
      assert n / 10 < Pow10(width - 1);
      ValuePad(n / 10, width - 1);
    }
  }

  lemma {:induction false} PadValue(s: string)
    requires AllDigits(s)
    ensures Value(s) < Pow10(|s|)
    ensures Pad(Value(s), |s|) == s
  {
    if s != "" {
      var init := s[..|s| - 1];
      PadValue(init);
      var d := s[|s| - 1] as int - '0' as int;
      var v := Value(s);
      assert v == 10 * Value(init) + d;
      assert v / 10 == Value(init) && v % 10 == d;
      assert s == init + [s[|s| - 1]];
    }
  }

  // ------------------------------------------------------------ formats

  /** `strftime("%Y%m%d%H%M%S")`. */
  function Stamp(t: DateTime): (s: string)
    requires t.Valid()
    ensures |s| == 14 && AllDigits(s)
  {
    Pad(t.year, 4) + Pad(t.month, 2) + Pad(t.day, 2) + Pad(t.hour, 2) + Pad(t.minute, 2) + Pad(t.second, 2)
  }

  /** `strftime("%Y-%m-%d %H:%M:%S")`. */
  function Display(t: DateTime): (s: string)
    requires t.Valid()
    ensures |s| == 19 && s[4] == '-' && s[7] == '-' && s[10] == ' ' && s[13] == ':' && s[16] == ':'
  {
    Pad(t.year, 4) + "-" + Pad(t.month, 2) + "-" + Pad(t.day, 2) + " "
    + Pad(t.hour, 2) + ":" + Pad(t.minute, 2) + ":" + Pad(t.second, 2)
  }

  /** The displayed time is the stamp's digit fields with the separators of `%Y-%m-%d %H:%M:%S` put between them. */
  lemma DisplayOfStamp(t: DateTime)
    requires t.Valid()
    ensures var s := Stamp(t);
      Display(t) == s[..4] + "-" + s[4..6] + "-" + s[6..8] + " " + s[8..10] + ":" + s[10..12] + ":" + s[12..]
  {
    var s := Stamp(t);
    assert s[..4] == Pad(t.year, 4);
    assert s[4..6] == Pad(t.month, 2);
    assert s[6..8] == Pad(t.day, 2);
    assert s[8..10] == Pad(t.hour, 2);
    assert s[10..12] == Pad(t.minute, 2);
    assert s[12..] == Pad(t.second, 2);
  }

  /** `strptime(s, "%Y%m%d%H%M%S")`, restricted to exactly fourteen digits. */
  function ParseStamp(s: string): (r: Option<DateTime>)
    ensures r.Some? ==> r.value.Valid()
  {
    if |s| == 14 && AllDigits(s) then
      var t := DateTime(Value(s[..4]), Value(s[4..6]), Value(s[6..8]),
                        Value(s[8..10]), Value(s[10..12]), Value(s[12..]));
      if t.Valid() then Some(t) else None
    else None
  }

  /** Reading a stamp back gives the time it was written from. */
  lemma StampRoundTrip(t: DateTime)
    requires t.Valid()
    ensures ParseStamp(Stamp(t)) == Some(t)
  {
    var s := Stamp(t);
    assert s[..4] == Pad(t.year, 4);
    assert s[4..6] == Pad(t.month, 2);
    assert s[6..8] == Pad(t.day, 2);
    assert s[8..10] == Pad(t.hour, 2);
    assert s[10..12] == Pad(t.minute, 2);
    assert s[12..] == Pad(t.second, 2);
    assert Pow10(2) == 100 && Pow10(4) == 10000;
    ValuePad(t.year, 4);
    ValuePad(t.month, 2);
    ValuePad(t.day, 2);
    ValuePad(t.hour, 2);
    ValuePad(t.minute, 2);
    ValuePad(t.second, 2);
  }

  /** A string that parses is exactly the stamp of what it parses to. */
  lemma ParsedStampIsStamp(s: string)
    requires ParseStamp(s).Some?
    ensures Stamp(ParseStamp(s).value) == s
  {
    assert |s| == 14 && AllDigits(s);
    var y, mo, d, h, mi, se := s[..4], s[4..6], s[6..8], s[8..10], s[10..12], s[12..];
    assert AllDigits(y) && AllDigits(mo) && AllDigits(d) && AllDigits(h) && AllDigits(mi) && AllDigits(se);
    assert ParseStamp(s).value == DateTime(Value(y), Value(mo), Value(d), Value(h), Value(mi), Value(se));
    StampOfFields(y, mo, d, h, mi, se);
    assert s[..12] == s[..10] + mi;
    assert s[..10] == s[..8] + h;
    assert s[..8] == s[..6] + d;
    assert s[..6] == y + mo;
    assert s == s[..12] + se;
  }

  /** The stamp of the time read from six digit fields is the fields again. */
  lemma StampOfFields(y: string, mo: string, d: string, h: string, mi: string, se: string)
    requires |y| == 4 && |mo| == 2 && |d| == 2 && |h| == 2 && |mi| == 2 && |se| == 2
    requires AllDigits(y) && AllDigits(mo) && AllDigits(d) && AllDigits(h) && AllDigits(mi) && AllDigits(se)
    requires DateTime(Value(y), Value(mo), Value(d), Value(h), Value(mi), Value(se)).Valid()
    ensures Stamp(DateTime(Value(y), Value(mo), Value(d), Value(h), Value(mi), Value(se))) == y + mo + d + h + mi + se
  {
    PadValue(y);
    PadValue(mo);
    PadValue(d);
    PadValue(h);
    PadValue(mi);
    PadValue(se);
  }

  /** Distinct times give distinct stamps, so backups taken at distinct seconds get distinct names. */
  lemma StampInjective(t1: DateTime, t2: DateTime)
    requires t1.Valid() && t2.Valid() && Stamp(t1) == Stamp(t2)
    ensures t1 == t2
  {
    StampRoundTrip(t1);
    StampRoundTrip(t2);
  }
}

=== FILE: wrappers.dfy ===
/** Option, for values Python represents as `None` or a real value. */
module Wrappers {
  datatype Option<+T> = None | Some(value: T)
}
